=== FILE: README.md ===
# fake-compose orchestration engine in Dafny

This project models the orchestration engine of fake-compose, a
docker-compose look-alike written in Go. The model covers five parts:

- **Dependency ordering** (`internal/executor/executor.go`, `orderServices`).
  A depth-first walk over `depends_on` emits every name after the names it
  depends on. Names are marked visited before their dependencies are walked.
- **The executor** (same file). It keeps the map `runningServices`
  (service name to container id). `Up` starts the services in order and
  rolls back on the first failure. `Down` stops them from last to first.
- **The per-service lifecycle state machine** (`pkg/lifecycle/manager.go`).
  Each service record moves through pre-start, start, post-start and running
  on start, and through pre-stop, stop, post-stop and stopped on stop.
- **The hook runner** (`pkg/hooks/executor.go`). It dispatches on the hook
  type and checks the payload. Hook lists run fail-fast, each hook retried
  with linear back-off. A second runner collects one result per hook.
- **The compose-file parser's logic** (`internal/parser/parser.go`). This
  covers the validators, the `KEY=VALUE` env-file reader, relative-path
  rebasing and the variable lookup used for expansion.

The container backend is the stub (`pkg/container/stub.go`), because that
is the `container.Manager` the executor is built against. Every call
succeeds, and a service's container is `"stub-container-" + name`.

## How the model is built

- **Files.** `wrappers.dfy` holds Option and Result values. `compose.dfy`
  holds the data model. Then there is one file per source file:
  `container.dfy`, `hooks.dfy`, `lifecycle.dfy`, `ordering.dfy` and
  `executor.dfy` for `orderServices` and the executor, and `parser.dfy`.
  `text.dfy` holds the few Go string functions the env-file reader uses.
  `hooks_as_written.dfy` holds the HTTP hook as it is written, beside the
  intended one (see Findings).
- **Classes.** The stateful objects are classes whose methods update
  fields: `Executor.Executor`, `Lifecycle.Manager` and `Parser.Parser`.
  Each method is proved against a specification function of the old state,
  such as `StartStep`, `StopStep`, `RollbackRun`, `UpSpec`, `DownRun`,
  `StartSpec`, `StopSpec`, `RunHooks`, `CollectResults`, `Apply` and
  `Resolved`. The properties are proved as lemmas about those functions.
- **Hook effects.** Running a command, a script or an HTTP request is an
  oracle, `oracle: nat -> Effect`. Invocation t gets answer `oracle(t)`,
  which is `Broken` or `Done(status)`. Every invocation of `ExecuteHook`
  uses one slot. The lifecycle manager keeps the next slot in `hookClock`,
  so slot counts are invocation counts. The retry delays are returned as a
  list of seconds.
- **Hook types.** A hook keeps its `Type` string as written. Its `kind` is
  derived from that string by `Kind`, so a hook whose type is one of the
  known strings always has that kind.
- **Backend calls.** The executor records every call it makes on the
  backend, in order, in `calls`. The backend is a `Backend` value that lists
  which init, create and start calls fail. `Stub()`, the linked backend,
  lists none. This keeps the executor's error branches in the model.
- **Map iteration order.** Go visits map entries in an unspecified order.
  Where that order matters, the caller supplies it:
  - the `names` given to `OrderServices`, `ValidateComposeFile`, `Up` and
    `Down`;
  - the order of a service's `dependsOn` entries.

  Rollback picks its entries with `:|`. It returns the order it used as a
  ghost `entries`.
- **The nil-pointer panic.** A `depends_on` name that is not a service is
  still emitted into the order. `Up`, and `Down` when that name is
  running, then pass a nil service pointer on and the Go code panics. The
  model ends the run with `Crashed(name)`.

### Behaviour of the code worth knowing

- **Rollback order.** Rollback visits `runningServices` in map order, not
  in reverse start order. It never deletes the entries it stops.
- **No graph checks.** Cycles are not detected. On a cyclic graph the
  order is still duplicate-free and complete, but "dependencies first" is
  promised only for acyclic graphs. Missing dependency names are emitted
  rather than rejected.
- **Down's order.** `Down` recomputes the order with a fresh map
  iteration. Its order is some valid start order, reversed, but not
  necessarily the one the earlier `Up` used.
- **Failed backend start.** When the lifecycle start succeeds and the
  backend part then fails, the service's lifecycle record stays `Running`.
  The service is not in `runningServices`, so rollback does not stop it.
  With the stub backend this cannot happen (`StubStartStep`).
- **Attributed hook errors.** A hook failure carries the hook name and the
  cause, not the hook type.
- **Results-collecting runner.** `ExecuteHooksWithResults` never retries.
  It stops after a failure only when the hook's `Retries` is exactly 0; a
  negative count does not stop it.

## Model

| member | source | states |
|---|---|---|
| Compose.Kind | pkg/hooks/executor.go:60-71 | A string is read as `Other` exactly when it is not one of the four known type strings, and then `Other` keeps the string unchanged. |
| Compose.KindSpec | pkg/hooks/executor.go:60-71 | Each of "command", "script", "http" and "exec" reads as its own kind, and no other string does. |
| Compose.DependencyNames | pkg/compose/types.go:27 | One dependency name per `depends_on` entry, in iteration order. |
| Container.ContainerId | pkg/container/stub.go:31-34 | The id is exactly the prefix "stub-container-" followed by the service name. |
| Container.ContainerIdRoundTrip | pkg/container/stub.go:31-34 | The service name can be read back from its container id. |
| Container.ContainerIdInjective | pkg/container/stub.go:31-34 | Two services get the same container id iff they have the same name. |
| Container.Backend.RunInitContainer | pkg/container/stub.go:21-24 | An init container fails iff the backend lists it as failing. |
| Container.Backend.CreateService | pkg/container/stub.go:31-34 | Creation succeeds iff the service is not listed as failing, and then returns the service's stub container id. |
| Container.Backend.StartContainer | pkg/container/stub.go:36-39 | A start fails iff the backend lists the id as failing. |
| Container.Stub | pkg/container/stub.go:11-19 | The linked backend fails no init, create or start call. |
| Container.NewManager | pkg/container/stub.go:15-19 | Never fails, and yields the stub backend. |
| Container.RunPostContainer | pkg/container/stub.go:26-29 | Returns nil for any service and post container. |
| Container.StopContainer | pkg/container/stub.go:41-44 | Returns nil for any id and timeout. |
| Container.RemoveContainer | pkg/container/stub.go:46-49 | Returns nil for any id. |
| Container.Close | pkg/container/stub.go:51-53 | Returns nil. |
| Container.StubNeverFails | pkg/container/stub.go:21-39 | Against the stub, init containers and starts succeed, and creation returns "stub-container-" + name. |
| Hooks.ExecuteHook | pkg/hooks/executor.go:51-173 | The intended invocation, with a body-less HTTP request sent without a body (see Findings). A hook succeeds iff its type's payload is present and its effect succeeded. An unknown type fails with that type. For a known type, the error is a payload-precondition error iff the payload is missing. A bad-status error arises only for HTTP hooks, with status >= 400. |
| Hooks.BodylessHookRuns | pkg/hooks/executor.go:125-162 | In the intended invocation, an HTTP hook with a URL and no body passes iff the server answers below 400. A status of 400 or more fails with that status, and a broken request fails. |
| HooksAsWritten.ExecuteHookAsWritten | pkg/hooks/executor.go:125-146 | As written, an invocation panics iff the hook is an HTTP hook with a URL and an empty body, and net/http accepts its method and URL. The world's answer plays no part. Every other invocation returns what `Hooks.ExecuteHook` returns. |
| HooksAsWritten.RunHooksAsWrittenSpec | pkg/hooks/executor.go:31-49 | Let p be the list's first panicking hook. As written, the list panics iff every hook before p eventually succeeds. If one of them fails, the run ends with `RunHooks`'s failure. With no panicking hook, the run is `RunHooks`'s. |
| HooksAsWritten.BodylessGetPanics | pkg/hooks/executor.go:135-140 | A body-less GET of "http://localhost/health" panics as written, alone or as a one-hook list, whatever the world answers. The intended invocation passes it on a 200. |
| Hooks.ExecuteHookIgnoresOracle | pkg/hooks/executor.go:74-173 | A hook with a missing payload or an unknown type fails the same way whatever the world would answer, so no effect is attempted. A well-formed exec hook always returns nil. |
| Hooks.RequestMethod | pkg/hooks/executor.go:130-133 | An empty HTTP method becomes "GET". Any other method is kept. |
| Hooks.Budget | pkg/hooks/executor.go:33-42 | A hook may be invoked 1 + Retries times when Retries > 0, and otherwise once. |
| Hooks.Delays | pkg/hooks/executor.go:35-37 | The delay before retry k is k seconds. |
| Hooks.RetryFromSpec | pkg/hooks/executor.go:33-45 | Each hook's run ends at its first successful attempt, or after its last allowed attempt with that attempt's error. Every earlier attempt failed, and the delays slept are 1, 2, ..., one per retry. |
| Hooks.RunHookBounds | pkg/hooks/executor.go:33-45 | A hook is invoked between 1 and Budget times, and exactly once when Retries <= 0. It succeeds iff some attempt within the budget succeeds. Delay k is k seconds. |
| Hooks.RetryHook | pkg/hooks/executor.go:33-45 | The retry loop returns the final error, the invocations made and the delays slept, as `RetryFrom` defines them. |
| Hooks.RunHooksFailFast | pkg/hooks/executor.go:31-49 | A list succeeds iff every hook eventually succeeds, and then every hook ran. Otherwise the error names the first hook that fails, and no invocation happens after that hook's last attempt. |
| Hooks.ExecuteHooks | pkg/hooks/executor.go:31-49 | The list loop returns the attributed failure, the invocations made and the delays, as `RunHooks` defines them. |
| Hooks.ResultOf | pkg/hooks/executor.go:187-198 | A result carries its hook's name. Success holds iff there is no error. |
| Hooks.CollectResults | pkg/hooks/executor.go:184-206 | There are at most as many results as hooks. |
| Hooks.CollectResultsSpec | pkg/hooks/executor.go:187-198 | Result i belongs to hook i and comes from that hook's single invocation, with no retries. |
| Hooks.CollectResultsStops | pkg/hooks/executor.go:200-202 | The runner goes on past every failure except one of a hook whose Retries is 0. A list cut short ends with exactly such a failure. |
| Hooks.ExecuteHooksWithResults | pkg/hooks/executor.go:184-206 | The appending loop returns `CollectResults` and uses one invocation per result. |
| Lifecycle.ExecutePostContainer | pkg/lifecycle/manager.go:199-213 | A post container fails iff it has a wait_for that parses as a duration and the context is done. |
| Lifecycle.PostRunSpec | pkg/lifecycle/manager.go:166-193 | A post-container run fails iff some selected container fails. The error then names the first such container. Containers that are not selected never matter. |
| Lifecycle.PostRunLiveContext | pkg/lifecycle/manager.go:199-213 | With a live context, no post container fails. |
| Lifecycle.AfterPostContainers | pkg/lifecycle/manager.go:188-191 | PostCompleted becomes set iff the list is non-empty and no selected container failed. The rest of the record is unchanged. |
| Lifecycle.StartFromSpec | pkg/lifecycle/manager.go:53-94 | The start returns nil iff both start hook runs succeed, and the record then ends running, "Running", with no error. InitCompleted is set iff there are init containers. On an error, the status is "Error" and the record holds the error. A pre-start failure leaves phase pre-start; a post-start failure leaves phase post-start. |
| Lifecycle.StopFrom | pkg/lifecycle/manager.go:105-139 | Stopping never returns an error. A stopped record is left alone. Any other record ends stopped and "Stopped", keeping its name, error and InitCompleted. PostCompleted follows the on-failure post-container run. |
| Lifecycle.StopIdempotent | pkg/lifecycle/manager.go:105-107 | Stopping twice equals stopping once. The second stop runs no hooks and changes nothing. |
| Lifecycle.StartIgnoresPostContainers | pkg/lifecycle/manager.go:86-88 | Neither the post containers nor a done context changes a start's error or its hook position. In the model the context reaches only the post containers. |
| Lifecycle.Manager.constructor | pkg/lifecycle/manager.go:45-51 | A new manager has no records. |
| Lifecycle.Manager.StartService | pkg/lifecycle/manager.go:53-94 | The record for the name is replaced by the `StartSpec` record. Other records are untouched. The error and the hook position are as `StartSpec` says. |
| Lifecycle.Manager.StopService | pkg/lifecycle/manager.go:96-140 | An unknown name gives a not-found error and changes nothing. A known name's record, the error and the hook position are as `StopSpec` says. |
| Lifecycle.Manager.RunHooksAt | pkg/lifecycle/manager.go:68-84 | The hooks declared at a point are run as `RunHooks` says; none run when the service declares none. The records are untouched. |
| Lifecycle.Manager.RunInitContainers | pkg/lifecycle/manager.go:142-164 | InitCompleted becomes set iff there is at least one init container. |
| Lifecycle.Manager.RunPostContainers | pkg/lifecycle/manager.go:166-193 | The error is `PostRun`'s, and the record is updated as `AfterPostContainers` says. |
| Lifecycle.Manager.GetServiceState | pkg/lifecycle/manager.go:215-220 | Found iff the name has a record, and then that record is returned. |
| Lifecycle.Manager.GetAllServiceStates | pkg/lifecycle/manager.go:222-231 | Returns a map with the same names and the same records. |
| Lifecycle.Manager.UpdatePhase | pkg/lifecycle/manager.go:233-240 | Sets the phase of a known record only. Unknown names change nothing. |
| Lifecycle.Manager.UpdateStatus | pkg/lifecycle/manager.go:242-248 | Sets the status of a known record only. Unknown names change nothing. |
| Lifecycle.Manager.SetError | pkg/lifecycle/manager.go:250-258 | Returns its argument. A known record gets the error and status "Error". Unknown names change nothing. |
| Ordering.Visit | internal/executor/executor.go:186-199 | The walk's invariant is kept, where visited means emitted or open. The name ends up visited, and the output only grows. |
| Ordering.VisitDependencies | internal/executor/executor.go:192-196 | After the loop every dependency of the name is visited, and the walk's invariant still holds. |
| Ordering.VisitDependency | internal/executor/executor.go:193-195 | Walking one dependency keeps the invariant and marks that dependency visited. |
| Ordering.OrderServices | internal/executor/executor.go:181-206 | The order has no duplicates and contains every service. It contains only services and names they depend on, and the dependencies of each emitted name are emitted too. On an acyclic graph, every dependency comes before its dependent. It terminates on cyclic graphs. |
| Executor.InitRunSpec | internal/executor/executor.go:83-87 | Init containers run in order, up to and including the first that fails. The run fails iff one fails, and the error names it. |
| Executor.PostCallsSpec | internal/executor/executor.go:103-109 | A post container gets a backend call iff its flag matches the path: OnSuccess on start, OnFailure on stop. |
| Executor.BackendStartSpec | internal/executor/executor.go:83-109 | On success, the backend calls are the init containers, create, start and the on-success post containers. A failed start ends with the start call and a remove call for the same container. |
| Executor.StartStepSpec | internal/executor/executor.go:76-113 | The lifecycle record is replaced. A lifecycle failure makes no backend call. A service enters running, under its container id, only when create and start both succeeded. A failed start removes the container. |
| Executor.StubStartStep | internal/executor/executor.go:76-113 | With the stub backend, startService fails only in the lifecycle manager. |
| Executor.StopStepSpec | internal/executor/executor.go:115-153 | A name that is not running is a no-op. Otherwise the container is stopped (timeout 30) and removed, the on-failure post containers are called, the entry is deleted and the lifecycle record ends stopped. Other records are unchanged. |
| Executor.UpRunDone | internal/executor/executor.go:43-56 | When Up succeeds, every ordered name is running under its container id and has a lifecycle record. |
| Executor.UpRunStops | internal/executor/executor.go:43-53 | When Up fails, it stopped at order[k], the last name it tried. Exactly the names before it were started. Nothing concerned a name outside order[..k+1]: no backend call mentions it, and its record and running entry are unchanged. In a duplicate-free order that covers every later name. |
| Executor.UpRunFails | internal/executor/executor.go:43-53 | When Up fails, it stopped at the last name it tried, and the running entries and lifecycle records are as `FailedAt` says for that position. |
| Executor.UpRunCut | internal/executor/executor.go:43-54 | Up on an order gives the same result as Up on the prefix of names it tries, so the rest of the order plays no part. |
| Executor.UpRunConfined | internal/executor/executor.go:43-54 | Up only appends backend calls, each about a name of the order. Records and running entries of other names are unchanged. |
| Executor.UpRunRecords | internal/executor/executor.go:43-53 | After a failed Up, every running name has a lifecycle record if every name running before Up had one. |
| Executor.StartStepKeys | internal/executor/executor.go:76-113 | startService gives its service a lifecycle record, and adds a running entry exactly when it succeeds. |
| Executor.StartStepConfined | internal/executor/executor.go:76-113 | startService only appends backend calls, all about its own service. It changes only that service's record and running entry. |
| Executor.BackendStartAbout | internal/executor/executor.go:83-109 | Every backend call a start makes names its own service or that service's container id. |
| Executor.RollbackRunStops | internal/executor/executor.go:155-179 | Rollback keeps the set of lifecycle records. Every rolled-back service of the compose file that has a record ends in phase Stopped. |
| Executor.UpRollsBack | internal/executor/executor.go:46-52 | After a failed start, when the rollback covers every running entry: running is unchanged, and every running container gets a stop (timeout 10) and a remove. Every running service of the compose file that has a record ends Stopped. |
| Executor.UpStartsAll | internal/executor/executor.go:38-57 | After a successful Up, every service of the compose file is running under its container id. |
| Executor.RollbackRunSpec | internal/executor/executor.go:155-179 | Rollback leaves runningServices unchanged, and stops (timeout 10) and removes every recorded container. |
| Executor.DownStopsAll | internal/executor/executor.go:59-74 | Down keeps earlier calls and every lifecycle record, and a Stopped record stays Stopped. Without the panic, every named service of the compose file that was running has had its container stopped (timeout 30) and removed, and its record, if any, ends Stopped. |
| Executor.DownRunSpec | internal/executor/executor.go:59-74 | Down never fails except by the nil-service panic. Otherwise no name of the order is running afterwards. |
| Executor.Executor.constructor | internal/executor/executor.go:29-35 | A new executor has nothing running, has made no calls, and has a fresh lifecycle manager. |
| Executor.Executor.StartService | internal/executor/executor.go:76-113 | The executor's state and the error are as `StartStep` says. |
| Executor.Executor.StartContainers | internal/executor/executor.go:83-109 | The backend calls, the running map and the error are as `BackendStart` says. |
| Executor.Executor.RunInits | internal/executor/executor.go:83-87 | The init loop makes the calls and gives the error that `InitRun` says. |
| Executor.Executor.RunPosts | internal/executor/executor.go:103-109 | Exactly the selected post containers are called, in order. |
| Executor.Executor.StopService | internal/executor/executor.go:115-153 | The executor's state is as `StopStep` says. |
| Executor.Executor.Rollback | internal/executor/executor.go:155-179 | Each running entry is visited once, in some order, and the state is as `RollbackRun` says for that order. |
| Executor.Executor.RollbackEntry | internal/executor/executor.go:163-178 | One entry is stopped (timeout 10) and removed, then lifecycle-stopped if the compose file has it. |
| Executor.Executor.Up | internal/executor/executor.go:38-57 | Up uses an order `OrderServices` can return. The state and error are as `UpSpec` says: starts in order, and on the first failure a rollback with a fresh context and that error. After a failed start the rollback visits every name running at that point exactly once, so `UpRollsBack` applies. |
| Executor.Executor.Down | internal/executor/executor.go:59-74 | Down uses an order `OrderServices` can return, and the state and error are as `DownRun` says for that order, last to first. |
| Executor.Executor.Close | internal/executor/executor.go:208-210 | Returns nil. |
| Executor.New | internal/executor/executor.go:23-36 | Never fails. Yields an executor over the stub backend with nothing running and an empty lifecycle manager. |
| Text.TrimSpace | internal/parser/parser.go:195 | A trimmed line neither starts nor ends with white space. |
| Text.TrimSlice | internal/parser/parser.go:195 | Trimming removes only characters of the cut set, and only from the two ends. What remains is a contiguous slice of the input. |
| Text.TrimIdempotent | internal/parser/parser.go:202-204 | Trimming twice equals trimming once. |
| Text.LinesRoundTrip | internal/parser/parser.go:193 | Joining the lines with line breaks gives back the input, and no line holds a line break. |
| Text.Cut | internal/parser/parser.go:200 | There is no split iff the separator is absent. Otherwise the line is piece, separator, rest, where the first piece holds no separator. |
| Text.CutJoin | internal/parser/parser.go:200-201 | The split is at the first separator, so a value may contain `=`. |
| Parser.HookProblemSpec | internal/parser/parser.go:150-176 | A hook raises no validation error iff it has a name, a known type and that type's payload. |
| Parser.HookListProblemSpec | internal/parser/parser.go:150-177 | A list raises no error iff all its hooks are valid. Otherwise the error is that of one of its hooks. |
| Parser.ListsProblemSpec | internal/parser/parser.go:149-178 | Several lists raise no error iff every hook of every list is valid. |
| Parser.ValidateHooksSpec | internal/parser/parser.go:137-181 | validateHooks accepts iff every hook in all eight lists is valid. |
| Parser.ValidHookRuns | internal/parser/parser.go:137-181 | A hook that passes validation never fails the runner's type or payload checks. |
| Parser.InitProblemSpec | internal/parser/parser.go:110-117 | No init-container error iff every init container has a name and an image. |
| Parser.PostProblemSpec | internal/parser/parser.go:119-126 | No post-container error iff every post container has a name and an image. |
| Parser.ValidateServiceSpec | internal/parser/parser.go:105-135 | validateService accepts iff the service has an image or a build, all its containers are named and have images, and its hooks are valid. |
| Parser.ServicesProblemSpec | internal/parser/parser.go:96-100 | No service error iff every service is valid. |
| Parser.ValidateComposeFileSpec | internal/parser/parser.go:87-103 | A compose file is accepted iff it has a version, at least one service and only valid services, whatever the iteration order. |
| Parser.ParseLineSpec | internal/parser/parser.go:194-201 | A line is read iff, once trimmed, it is not blank, does not start with `#` and contains `=`. The key then holds no `=`. |
| Parser.ParseLineRoundTrip | internal/parser/parser.go:200-205 | `key=value` reads back as (key, value) when neither needs trimming, even if the value contains `=`. |
| Parser.ParseLines | internal/parser/parser.go:193-206 | Each line is read on its own. |
| Parser.LastLineWins | internal/parser/parser.go:194-206 | The last line that sets a key decides its value. |
| Parser.UnsetKeyKept | internal/parser/parser.go:194-206 | A key that no line sets keeps its earlier value, or stays absent. |
| Parser.Lookup | internal/parser/parser.go:49-54 | A variable loaded into the parser wins over the environment. An unset variable reads as empty. |
| Parser.SetThenLookup | internal/parser/parser.go:183-185 | After SetEnvVar(key, value), looking up key gives value. Every other key reads as before. |
| Parser.Join | internal/parser/parser.go:61 | Joining onto an absolute base gives an absolute path. |
| Parser.Rebase | internal/parser/parser.go:60-61 | An absolute path is unchanged. A relative path is joined onto the base. |
| Parser.RebaseAll | internal/parser/parser.go:65-69 | Every env file is rebased in place, and the list keeps its length. |
| Parser.ResolvedSpec | internal/parser/parser.go:57-85 | Only paths change. The services, configs and secrets keep their keys. Absolute and empty config or secret files are unchanged. With an absolute base, every env file ends up absolute. |
| Parser.ResolvedIdempotent | internal/parser/parser.go:57-85 | With an absolute base (or none), resolving twice equals resolving once. |
| Parser.Parser.constructor | internal/parser/parser.go:18-22 | A new parser has no variables. |
| Parser.Parser.SetEnvVar | internal/parser/parser.go:183-185 | Sets the variable, overwriting any earlier value. |
| Parser.Parser.LoadEnvFile | internal/parser/parser.go:187-210 | A read error is reported as "failed to read env file: ..." and changes nothing. Otherwise the file's lines are applied in order on top of the existing variables. |
| Parser.Parser.LookupVar | internal/parser/parser.go:48-55 | The lookup uses the parser's current variables. |
| Parser.Parser.ResolveRelativePaths | internal/parser/parser.go:57-85 | The rewritten compose file is `Resolved(baseDir, cf)`. |
| Parser.RebaseServices | internal/parser/parser.go:58-70 | Every service is rebased. |
| Parser.RebaseService | internal/parser/parser.go:59-69 | A non-empty relative build context and every relative env file are joined onto the base. |
| Parser.RebaseFiles | internal/parser/parser.go:72-82 | Every non-empty relative config or secret file is joined onto the base. |

## Left out

- Time: `time.Sleep` and `time.Now`, start and stop timestamps, and hook timeouts and their deadlines. Retry delays are returned as a list of seconds, and the post-container wait is "completed or cancelled".
- Lifecycle.ExecutePostContainer: `time.ParseDuration` overflow is not modelled. A zero or negative wait that races a done context is treated as cancelled, although Go's `select` may pick either branch.
- Lifecycle.StartIgnoresPostContainers: a done context cancels command, script and HTTP hooks in the Go code (`exec.CommandContext`, `http.NewRequestWithContext`). In the model a cancellation reaches hook effects only through the oracle's answers, so the context independence holds only for the model.
- Real hook effects: process spawning, temporary script files, and the HTTP client with its headers and 30-second timeout. Each invocation's result is the oracle's answer. A request that cannot be built counts as a broken request. Whether the body is empty is not an effect: it decides the panic described under Findings.
- Hooks.ExecuteHook: models the intended request, which has no body when the hook has none. In the code as written, such a request panics once net/http accepts its method and URL, and nothing recovers from it. `HooksAsWritten` models that crash for one invocation and for a hook list. The lifecycle manager and the executor run hooks through the intended `Hooks.ExecuteHook` and `Hooks.RunHooks`, so their contracts (`StartSpec`, `StopSpec`, `Up`, `Down`) do not show the crash of a start or stop hook without a body.
- Locking (`sync.RWMutex`): the model is single-threaded.
- Lifecycle.Manager.GetServiceState: records are values, so the Go aliasing, where a returned `*ServiceState` sees later updates, is not captured.
- Executor.Executor.Up and Executor.Executor.Down: `Crashed` ends the run, but the effects the Go code has before its nil-pointer panic are not modelled. Those are the record registered by the lifecycle start, and the calls made by stopService.
- Lifecycle.Manager.StartService: the Go init-container error branch is unreachable (`executeInitContainer` always returns nil), so the model has no such error.
- Logging calls, and the error text of wrapped errors beyond their structure (the parser's messages are kept verbatim).
- `ParseFile`, YAML decoding, `os.Expand` and reading files. `LoadEnvFile` is given the file's contents or the read error; only the lookup of `expandEnvVars` is modelled.
- Parser.Join: `filepath.Join`'s lexical cleaning is not modelled, and `filepath.IsAbs` is "starts with /".
- Text.TrimSpace: strings are sequences of code points, so invalid UTF-8 bytes are not modelled.
- cmd/fake-compose/main.go and pkg/container/docker.go are not part of this model.
- Container.StopContainer, Container.RemoveContainer and Container.RunPostContainer: the executor only logs their failures, and the stub never fails them, so they are not given failure sets.
- Hooks.RequestMethod: apart from the crash check in `HooksAsWritten.Panics`, the method only shapes the request that is sent. The answer to a request is the oracle's, so `ExecuteHook` does not consult it. net/url's parser is a parameter, `urlParses`.

## Findings

| source | as written | input that shows it | evidently intended | confidence | as-written member | corrected member |
|---|---|---|---|---|---|---|
| pkg/hooks/executor.go:135-140 | `body` is a `*bytes.Buffer` that stays nil when the hook has no body. It reaches `http.NewRequestWithContext` as a non-nil `io.Reader`. Once the method and URL are accepted, net/http reads the buffer's length through the nil pointer and panics, and nothing recovers. | An HTTP hook with URL "http://localhost/health", no method and no body, such as a plain health check (`HooksAsWritten.BodylessGetPanics`). | The request is sent without a body, and the hook passes iff the status is below 400 (`Hooks.BodylessHookRuns`). | high; not executed | HooksAsWritten.ExecuteHookAsWritten | Hooks.ExecuteHook |

=== FILE: compose.dfy ===
/**
 * The parts of the compose-file data model that the orchestration engine
 * reads (pkg/compose/types.go). Fields the engine never looks at (ports,
 * networks, deploy, health checks, cloud-native settings) are not mirrored.
 */
module Compose {
  import opened Wrappers

  /** One `depends_on` entry. The condition is carried but never interpreted. */
  datatype Dependency = Dependency(name: string, condition: string)

  /** `verb` is the Go field `Method` (a reserved word here). */
  datatype HTTPHook = HTTPHook(url: string, verb: string, headers: map<string, string>, body: string)

  datatype ExecHook = ExecHook(container: string, command: seq<string>)

  /**
   * The Go field `Type` of a hook, a free string. The four tags the engine
   * knows get their own variant; any other string, the empty one included,
   * is kept as `Other(tag)`. `Kind` is the reading of a tag.
   */
  datatype HookKind = Command | Script | Http | Exec | Other(tag: string)

  function Kind(tag: string): (k: HookKind)
    ensures k.Other? <==> tag !in {"command", "script", "http", "exec"}
    ensures k.Other? ==> k.tag == tag
  {
    if tag == "command" then Command
    else if tag == "script" then Script
    else if tag == "http" then Http
    else if tag == "exec" then Exec
    else Other(tag)
  }

  /** Each known tag, and only that tag, reads as its own kind. */
  lemma KindSpec(tag: string)
    ensures Kind(tag) == Command <==> tag == "command"
    ensures Kind(tag) == Script <==> tag == "script"
    ensures Kind(tag) == Http <==> tag == "http"
    ensures Kind(tag) == Exec <==> tag == "exec"
  {
  }

  /** A lifecycle hook. `typ` is the source's `Type` string; `kind` is its
      reading, so no hook carries `Other` of a known tag. */
  datatype Hook = Hook(
    name: string,
    typ: string,
    command: seq<string>,
    script: string,
    http: Option<HTTPHook>,
    exec: Option<ExecHook>,
    retries: int)
  {
    const kind: HookKind := Kind(typ)
  }

  /** The eight hook slots of a service. */
  datatype Hooks = Hooks(
    preStart: seq<Hook>, postStart: seq<Hook>,
    preStop: seq<Hook>, postStop: seq<Hook>,
    preBuild: seq<Hook>, postBuild: seq<Hook>,
    preDeploy: seq<Hook>, postDeploy: seq<Hook>)

  datatype InitContainer = InitContainer(name: string, image: string, command: seq<string>)

  datatype PostContainer = PostContainer(
    name: string, image: string, command: seq<string>,
    waitFor: string, onSuccess: bool, onFailure: bool)

  datatype BuildConfig = BuildConfig(context: string, dockerfile: string)

  /**
   * A service. `dependsOn` is a map in the source; here it is the list of its
   * entries in the order in which Go's map iteration happens to yield them.
   */
  datatype Service = Service(
    image: string,
    build: Option<BuildConfig>,
    envFile: seq<string>,
    dependsOn: seq<Dependency>,
    initContainers: seq<InitContainer>,
    postContainers: seq<PostContainer>,
    hooks: Option<Hooks>)

  /** A top-level `configs` or `secrets` entry. */
  datatype FileRef = FileRef(file: string, external: bool)

  datatype ComposeFile = ComposeFile(
    version: string,
    services: map<string, Service>,
    configs: map<string, FileRef>,
    secrets: map<string, FileRef>)

  /** The names a service depends on, in iteration order. */
  function DependencyNames(s: Service): (names: seq<string>)
    ensures |names| == |s.dependsOn|
    ensures forall i :: 0 <= i < |names| ==> names[i] == s.dependsOn[i].name
  {
    seq(|s.dependsOn|, i requires 0 <= i < |s.dependsOn| => s.dependsOn[i].name)
  }
}

=== FILE: container.dfy ===
/**
 * The container backend that the executor links against (pkg/container/stub.go):
 * every call succeeds and a service's container id is "stub-container-" + name.
 *
 * The executor still has error branches for the backend calls that can fail
 * in principle (init containers, create, start). To state what those branches
 * do, a `Backend` value lists which calls fail; `Stub()` is the backend that is
 * actually compiled in, where none do.
 */
module Container {
  import opened Wrappers
  import opened Compose

  const StubPrefix: string := "stub-container-"

  /** The id that CreateService hands out for a service. */
  function ContainerId(serviceName: string): (id: string)
    ensures |id| == |StubPrefix| + |serviceName|
    ensures id[..|StubPrefix|] == StubPrefix && id[|StubPrefix|..] == serviceName
  {
    StubPrefix + serviceName
  }

  /** Recovers the service name from a stub container id, if it is one. */
  function ServiceOfContainer(id: string): (r: Option<string>)
    ensures r.Some? ==> ContainerId(r.value) == id
  {
    if |StubPrefix| <= |id| && id[..|StubPrefix|] == StubPrefix then
      assert StubPrefix + id[|StubPrefix|..] == id;
      Some(id[|StubPrefix|..])
    else None
  }

  /** Container ids determine their service: distinct services never share a container. */
  lemma ContainerIdRoundTrip(name: string)
    ensures ServiceOfContainer(ContainerId(name)) == Some(name)
  {
  }

  lemma ContainerIdInjective(a: string, b: string)
    ensures ContainerId(a) == ContainerId(b) <==> a == b
  {
    if ContainerId(a) == ContainerId(b) {
      ContainerIdRoundTrip(a);
      ContainerIdRoundTrip(b);
    }
  }

  /** Which backend calls fail: init containers by (service, container name),
      creation by service name, start by container id. */
  datatype Backend = Backend(
    failingInits: set<(string, string)>,
    failingCreates: set<string>,
    failingStarts: set<string>)
  {
    function RunInitContainer(serviceName: string, init: InitContainer): (r: Outcome<string>)
      ensures r.Fail? <==> (serviceName, init.name) in failingInits
    {
      if (serviceName, init.name) in failingInits then Fail("init container exited with an error") else Pass
    }

    function CreateService(serviceName: string): (r: Result<string, string>)
      ensures r.Success? <==> serviceName !in failingCreates
      ensures r.Success? ==> r.value == ContainerId(serviceName)
    {
      if serviceName in failingCreates then Failure("container creation failed")
      else Success(ContainerId(serviceName))
    }

    function StartContainer(id: string): (r: Outcome<string>)
      ensures r.Fail? <==> id in failingStarts
    {
      if id in failingStarts then Fail("container start failed") else Pass
    }
  }

  /** The compiled-in backend: no call fails. */
  function Stub(): (b: Backend)
    ensures b.failingInits == {} && b.failingCreates == {} && b.failingStarts == {}
  {
    Backend({}, {}, {})
  }

  /** NewManager never returns an error. */
  function NewManager(): (r: Result<Backend, string>)
    ensures r.Success? && r.value == Stub()
  {
    Success(Stub())
  }

  /** Calls whose failures the executor only logs; the stub returns nil for
      any argument. */
  function RunPostContainer(serviceName: string, post: PostContainer): (r: Outcome<string>)
    ensures r == Pass
  {
    Pass
  }

  function StopContainer(id: string, timeout: int): (r: Outcome<string>)
    ensures r == Pass
  {
    Pass
  }

  function RemoveContainer(id: string): (r: Outcome<string>)
    ensures r == Pass
  {
    Pass
  }

  function Close(): (r: Outcome<string>)
    ensures r == Pass
  {
    Pass
  }

  /** Against the stub, every call that could fail succeeds, and creation
      returns the "stub-container-" id. */
  lemma StubNeverFails(serviceName: string, init: InitContainer, id: string)
    ensures Stub().RunInitContainer(serviceName, init) == Pass
    ensures Stub().CreateService(serviceName) == Success(StubPrefix + serviceName)
    ensures Stub().StartContainer(id) == Pass
  {
  }
}

=== FILE: executor.dfy ===
/**
 * The orchestration engine (internal/executor/executor.go): starts services
 * in dependency order, rolls back on the first failure, and tears services
 * down in reverse order.
 *
 * The executor's own state is `running` (service name to container id). The
 * backend calls it makes are recorded, in order, in `calls`, so that what a
 * step does to the containers can be stated. The lifecycle manager it drives
 * is a `Lifecycle.Manager`.
 *
 * Specification functions work on a `World`: the executor's two fields plus
 * the lifecycle manager's records and hook-oracle position.
 */
module Executor {
  import opened Wrappers
  import opened Compose
  import opened Container
  import opened Hooks
  import opened Lifecycle
  import opened Ordering

  /** A call the executor makes on the container backend. */
  datatype BackendCall =
    | InitCall(service: string, container: string)
    | CreateCall(service: string)
    | StartCall(id: string)
    | StopCall(id: string, timeout: int)
    | RemoveCall(id: string)
    | PostCall(service: string, container: string)

  /** Why startService failed. */
  datatype StartError =
    | LifecycleFailed(cause: LifecycleError)
    | InitFailed(container: string, reason: string)
    | CreateFailed(reason: string)
    | ContainerStartFailed(reason: string)

  /**
   * Why Up or Down ended early. `Crashed` stands for the nil-pointer panic the
   * Go code hits when it reaches a service that is not in the compose file (a
   * depends_on name without a service).
   */
  datatype ExecError =
    | ServiceFailed(service: string, cause: StartError)
    | Crashed(service: string)

  datatype World = World(
    running: map<string, string>,
    calls: seq<BackendCall>,
    states: map<string, ServiceState>,
    clock: nat)

  /** Backend calls made and the error, if any, of part of a start. */
  datatype StartRun = StartRun(calls: seq<BackendCall>, err: Option<StartError>)

  datatype Step = Step(world: World, err: Option<StartError>)

  datatype Run = Run(world: World, err: Option<ExecError>)

  // ---------------------------------------------------------------------
  // One service
  // ---------------------------------------------------------------------

  /** One init call per container, in order. */
  function InitCalls(name: string, inits: seq<InitContainer>): (r: seq<BackendCall>)
    ensures |r| == |inits|
    ensures forall i :: 0 <= i < |inits| ==> r[i] == InitCall(name, inits[i].name)
  {
    seq(|inits|, i requires 0 <= i < |inits| => InitCall(name, inits[i].name))
  }

  lemma InitCallsSnoc(name: string, inits: seq<InitContainer>, i: nat)
    requires i < |inits|
    ensures InitCalls(name, inits[..i + 1]) == InitCalls(name, inits[..i]) + [InitCall(name, inits[i].name)]
  {
  }

  /** The init containers, run in order until the first that fails. */
  function InitRun(b: Backend, name: string, inits: seq<InitContainer>): StartRun
    decreases |inits|
  {
    if inits == [] then StartRun([], None)
    else
      var call := InitCall(name, inits[0].name);
      match b.RunInitContainer(name, inits[0])
      case Fail(reason) => StartRun([call], Some(InitFailed(inits[0].name, reason)))
      case Pass =>
        var rest := InitRun(b, name, inits[1..]);
        StartRun([call] + rest.calls, rest.err)
  }

  /** Whether the backend fails an init container of a service. */
  predicate InitFails(b: Backend, name: string, init: InitContainer) {
    (name, init.name) in b.failingInits
  }

  /** The position of the first init container the backend fails, or |inits|
      when none fails. */
  function FirstInitFailure(b: Backend, name: string, inits: seq<InitContainer>): (k: nat)
    ensures k <= |inits|
    ensures k < |inits| ==> InitFails(b, name, inits[k])
    ensures forall j :: 0 <= j < k ==> !InitFails(b, name, inits[j])
    decreases |inits|
  {
    if inits == [] then 0
    else if InitFails(b, name, inits[0]) then 0
    else
      var k := 1 + FirstInitFailure(b, name, inits[1..]);
      assert forall j :: 1 <= j < k ==> inits[j] == inits[1..][j - 1];
      k
  }

  /** Init containers run in order up to and including the first that fails;
      the run fails iff one fails, with that container's name. */
  lemma {:induction false} InitRunSpec(b: Backend, name: string, inits: seq<InitContainer>)
    ensures var r := InitRun(b, name, inits);
      var k := FirstInitFailure(b, name, inits);
      && (k == |inits| ==> r.err.None? && r.calls == InitCalls(name, inits))
      && (k < |inits| ==>
            && r.err == Some(InitFailed(inits[k].name, "init container exited with an error"))
            && r.calls == InitCalls(name, inits[..k + 1]))
    decreases |inits|
  {
    if inits != [] && !InitFails(b, name, inits[0]) {
      InitRunSpec(b, name, inits[1..]);
      var k := FirstInitFailure(b, name, inits);
      var r := InitRun(b, name, inits);
      if k < |inits| {
        assert inits[1..][..k] == inits[1..k + 1];
        assert r.calls == InitCalls(name, inits[..k + 1]);
      } else {
        assert r.calls == InitCalls(name, inits);
      }
    }
  }

  /** One post call for each post container selected for this path, in order. */
  function PostCalls(name: string, posts: seq<PostContainer>, onSuccess: bool): seq<BackendCall>
    decreases |posts|
  {
    if posts == [] then []
    else
      (if Selected(posts[0], onSuccess) then [PostCall(name, posts[0].name)] else [])
      + PostCalls(name, posts[1..], onSuccess)
  }

  /** Exactly the post containers whose flag matches the path get a post call. */
  lemma {:induction false} PostCallsSpec(name: string, posts: seq<PostContainer>, onSuccess: bool)
    ensures forall c :: c in PostCalls(name, posts, onSuccess) ==>
      exists p :: p in posts && Selected(p, onSuccess) && c == PostCall(name, p.name)
    ensures forall p :: p in posts && Selected(p, onSuccess) ==> PostCall(name, p.name) in PostCalls(name, posts, onSuccess)
    decreases |posts|
  {
    if posts != [] {
      PostCallsSpec(name, posts[1..], onSuccess);
      forall p | p in posts && Selected(p, onSuccess)
        ensures PostCall(name, p.name) in PostCalls(name, posts, onSuccess)
      {
        if p != posts[0] {
          assert p in posts[1..];
        }
      }
    }
  }

  /**
   * The backend part of startService: init containers, create, start (on a
   * failed start the container is removed again), then the on-success post
   * containers, whose failures are only logged.
   */
  function BackendStart(b: Backend, name: string, svc: Service): StartRun {
    var init := InitRun(b, name, svc.initContainers);
    if init.err.Some? then init
    else
      match b.CreateService(name)
      case Failure(reason) => StartRun(init.calls + [CreateCall(name)], Some(CreateFailed(reason)))
      case Success(id) =>
        match b.StartContainer(id)
        case Fail(reason) =>
          StartRun(init.calls + [CreateCall(name), StartCall(id), RemoveCall(id)], Some(ContainerStartFailed(reason)))
        case Pass =>
          StartRun(init.calls + [CreateCall(name), StartCall(id)] + PostCalls(name, svc.postContainers, true), None)
  }

  /**
   * startService: the lifecycle start, then the backend part. The service is
   * recorded as running, under its container id, only when both happened
   * without error.
   */
  function StartStep(w: World, b: Backend, oracle: nat -> Effect, name: string, svc: Service, ctx: Context): Step {
    var lc := StartSpec(name, svc, ctx, oracle, w.clock);
    var w1 := w.(states := w.states[name := lc.state], clock := lc.clock);
    if lc.err.Some? then Step(w1, Some(LifecycleFailed(lc.err.value)))
    else
      var br := BackendStart(b, name, svc);
      Step(w1.(calls := w.calls + br.calls,
               running := if br.err.None? then w.running[name := ContainerId(name)] else w.running),
           br.err)
  }

  /**
   * What startService promises: the lifecycle record is replaced; a service
   * enters `running` only when its container was created and started; a
   * container that fails to start is removed; on success the calls are the
   * init containers, create, start, and the on-success post containers.
   */
  lemma StartStepSpec(w: World, b: Backend, oracle: nat -> Effect, name: string, svc: Service, ctx: Context)
    ensures var r := StartStep(w, b, oracle, name, svc, ctx);
      var lc := StartSpec(name, svc, ctx, oracle, w.clock);
      && r.world.states == w.states[name := lc.state]
      && r.world.clock == lc.clock
      && (lc.err.Some? ==> r.err == Some(LifecycleFailed(lc.err.value)) && r.world.calls == w.calls && r.world.running == w.running)
      && (r.err.None? ==>
            && r.world.running == w.running[name := ContainerId(name)]
            && r.world.calls == w.calls + InitCalls(name, svc.initContainers)
                 + [CreateCall(name), StartCall(ContainerId(name))] + PostCalls(name, svc.postContainers, true))
      && (r.err.Some? ==> r.world.running == w.running)
      && (r.err.Some? && r.err.value.ContainerStartFailed? ==>
            |r.world.calls| >= 2
            && r.world.calls[|r.world.calls| - 2..] == [StartCall(ContainerId(name)), RemoveCall(ContainerId(name))])
  {
    BackendStartSpec(b, name, svc);
  }

  /** startService gives its service a record, and a running entry exactly
      when it succeeds. */
  lemma StartStepKeys(w: World, b: Backend, oracle: nat -> Effect, name: string, svc: Service, ctx: Context)
    ensures var r := StartStep(w, b, oracle, name, svc, ctx);
      && r.world.states.Keys == w.states.Keys + {name}
      && (r.err.None? ==> r.world.running == w.running[name := ContainerId(name)])
      && (r.err.Some? ==> r.world.running == w.running)
  {
  }

  /** The backend part succeeds with the init, create, start and on-success
      post calls; a failed start ends with the start and the removal. */
  lemma BackendStartSpec(b: Backend, name: string, svc: Service)
    ensures var br := BackendStart(b, name, svc);
      && (br.err.None? ==>
            br.calls == InitCalls(name, svc.initContainers)
              + [CreateCall(name), StartCall(ContainerId(name))] + PostCalls(name, svc.postContainers, true))
      && (br.err.Some? && br.err.value.ContainerStartFailed? ==>
            |br.calls| >= 2
            && br.calls[|br.calls| - 2..] == [StartCall(ContainerId(name)), RemoveCall(ContainerId(name))])
  {
    InitRunSpec(b, name, svc.initContainers);
  }

  /** With the compiled-in stub, a start fails only in the lifecycle manager. */
  lemma StubStartStep(w: World, oracle: nat -> Effect, name: string, svc: Service, ctx: Context)
    ensures var r := StartStep(w, Stub(), oracle, name, svc, ctx);
      r.err.Some? ==> r.err.value.LifecycleFailed?
  {
    InitRunSpec(Stub(), name, svc.initContainers);
  }

  /** The lifecycle manager's StopService, on the world: unknown names are
      left alone (the manager reports them and the caller only logs it). */
  function LifecycleStop(w: World, oracle: nat -> Effect, name: string, svc: Service, ctx: Context): World {
    if name !in w.states then w
    else
      var r := StopSpec(w.states[name], svc, ctx, oracle, w.clock);
      w.(states := w.states[name := r.state], clock := r.clock)
  }

  /**
   * stopService: nothing for a service that is not running; otherwise the
   * lifecycle stop, stop (timeout 30) and remove of its container, the
   * on-failure post containers, and the entry is deleted. Every failure on
   * the way is only logged.
   */
  function StopStep(w: World, oracle: nat -> Effect, name: string, svc: Service, ctx: Context): World {
    if name !in w.running then w
    else
      var id := w.running[name];
      var w1 := LifecycleStop(w, oracle, name, svc, ctx);
      w1.(calls := w1.calls + [StopCall(id, 30), RemoveCall(id)] + PostCalls(name, svc.postContainers, false),
          running := w1.running - {name})
  }

  lemma StopStepSpec(w: World, oracle: nat -> Effect, name: string, svc: Service, ctx: Context)
    ensures var r := StopStep(w, oracle, name, svc, ctx);
      && (name !in w.running ==> r == w)
      && (name in w.running ==>
            && r.running == w.running - {name}
            && r.calls == w.calls + [StopCall(w.running[name], 30), RemoveCall(w.running[name])]
                 + PostCalls(name, svc.postContainers, false)
            && r.states.Keys == w.states.Keys
            && (name in w.states ==> r.states[name].phase == Stopped)
            && (forall n :: n in w.states && n != name ==> r.states[n] == w.states[n]))
  {
  }

  // ---------------------------------------------------------------------
  // Up, rollback, Down
  // ---------------------------------------------------------------------

  /** The running entries of services started by the stub-style backend. */
  function Started(names: seq<string>): (m: map<string, string>)
    ensures m.Keys == Elems(names)
    ensures forall n :: n in m ==> m[n] == ContainerId(n)
  {
    map n | n in names :: ContainerId(n)
  }

  /** Up's loop: start each name in order; stop at the first that fails. */
  function UpRun(w: World, b: Backend, oracle: nat -> Effect, cf: ComposeFile, order: seq<string>, ctx: Context): Run
    decreases |order|
  {
    if order == [] then Run(w, None)
    else if order[0] !in cf.services then Run(w, Some(Crashed(order[0])))
    else
      var s := StartStep(w, b, oracle, order[0], cf.services[order[0]], ctx);
      if s.err.Some? then Run(s.world, Some(ServiceFailed(order[0], s.err.value)))
      else UpRun(s.world, b, oracle, cf, order[1..], ctx)
  }

  /**
   * Up stopped at order[k]: the names before it are running, and the
   * lifecycle records exist for the names tried (order[k] included unless it
   * is not a service).
   */
  ghost predicate FailedAt(w: World, r: Run, cf: ComposeFile, order: seq<string>, k: int) {
    && r.err.Some?
    && 0 <= k < |order| && order[k] == r.err.value.service
    && r.world.running == w.running + Started(order[..k])
    && (r.err.value.Crashed? ==> order[k] !in cf.services && r.world.states.Keys == w.states.Keys + Elems(order[..k]))
    && (r.err.value.ServiceFailed? ==> r.world.states.Keys == w.states.Keys + Elems(order[..k + 1]))
  }

  /**
   * Up is fail-fast: with no error every name of `order` is running under its
   * container id and has a lifecycle record.
   */
  lemma {:induction false} UpRunDone(w: World, b: Backend, oracle: nat -> Effect, cf: ComposeFile, order: seq<string>, ctx: Context)
    requires UpRun(w, b, oracle, cf, order, ctx).err.None?
    ensures var r := UpRun(w, b, oracle, cf, order, ctx);
      && r.world.running == w.running + Started(order)
      && r.world.states.Keys == w.states.Keys + Elems(order)
    decreases |order|
  {
    if order == [] {
      assert Started(order) == map[];
    } else {
      var x, rest := order[0], order[1..];
      assert order == [x] + rest;
      var s := StartStep(w, b, oracle, x, cf.services[x], ctx);
      StartStepKeys(w, b, oracle, x, cf.services[x], ctx);
      UpRunDone(s.world, b, oracle, cf, rest, ctx);
      StartedCons(w.running, x, rest);
      ElemsCons(x, rest);
    }
  }

  /** How many names of `order` Up tries: those it starts and, when it
      stops early, the one it stops at. */
  function UpTried(w: World, b: Backend, oracle: nat -> Effect, cf: ComposeFile, order: seq<string>, ctx: Context): (t: nat)
    ensures t <= |order|
    decreases |order|
  {
    if order == [] then 0
    else if order[0] !in cf.services then 1
    else
      var s := StartStep(w, b, oracle, order[0], cf.services[order[0]], ctx);
      if s.err.Some? then 1 else 1 + UpTried(s.world, b, oracle, cf, order[1..], ctx)
  }

  /** With an error, Up stopped at the last name it tried; the names before
      it are running. */
  lemma {:induction false} UpRunFails(w: World, b: Backend, oracle: nat -> Effect, cf: ComposeFile, order: seq<string>, ctx: Context)
    requires UpRun(w, b, oracle, cf, order, ctx).err.Some?
    ensures FailedAt(w, UpRun(w, b, oracle, cf, order, ctx), cf, order, UpTried(w, b, oracle, cf, order, ctx) - 1)
    decreases |order|
  {
    var x := order[0];
    if x !in cf.services || StartStep(w, b, oracle, x, cf.services[x], ctx).err.Some? {
      UpRunFailsFirst(w, b, oracle, cf, order, ctx);
    } else {
      var s := StartStep(w, b, oracle, x, cf.services[x], ctx);
      StartStepKeys(w, b, oracle, x, cf.services[x], ctx);
      UpRunFails(s.world, b, oracle, cf, order[1..], ctx);
      FailedAtCons(w, s.world, UpRun(w, b, oracle, cf, order, ctx), cf, order, UpTried(s.world, b, oracle, cf, order[1..], ctx) - 1);
    }
  }

  /** Up that fails at its first name fails at position 0. */
  lemma UpRunFailsFirst(w: World, b: Backend, oracle: nat -> Effect, cf: ComposeFile, order: seq<string>, ctx: Context)
    requires order != []
    requires order[0] !in cf.services || StartStep(w, b, oracle, order[0], cf.services[order[0]], ctx).err.Some?
    ensures UpTried(w, b, oracle, cf, order, ctx) == 1
    ensures FailedAt(w, UpRun(w, b, oracle, cf, order, ctx), cf, order, 0)
  {
    assert order[..0] == [] && Started([]) == map[];
    assert order[..1] == [order[0]];
    if order[0] in cf.services {
      StartStepKeys(w, b, oracle, order[0], cf.services[order[0]], ctx);
    }
  }

  /**
   * With an error, Up stopped at order[k], k + 1 being the number of names
   * it tried: the names before it are running, and nothing concerning a
   * name outside order[..k + 1] happened (no backend call, no change to its
   * record or running entry). When `order` has no duplicates, as Up's order
   * has not, that covers every later name.
   */
  lemma UpRunStops(w: World, b: Backend, oracle: nat -> Effect, cf: ComposeFile, order: seq<string>, ctx: Context)
    requires UpRun(w, b, oracle, cf, order, ctx).err.Some?
    ensures var r := UpRun(w, b, oracle, cf, order, ctx);
      var k := UpTried(w, b, oracle, cf, order, ctx) - 1;
      && FailedAt(w, r, cf, order, k)
      && (forall n :: n !in Elems(order[..k + 1]) ==> Untouched(w, r.world, n))
      && (NoDup(order) ==> forall j :: k < j < |order| ==> Untouched(w, r.world, order[j]))
  {
    var r := UpRun(w, b, oracle, cf, order, ctx);
    var t := UpTried(w, b, oracle, cf, order, ctx);
    UpRunFails(w, b, oracle, cf, order, ctx);
    UpRunCut(w, b, oracle, cf, order, ctx);
    UpRunConfined(w, b, oracle, cf, order[..t], ctx);
    forall n | n !in Elems(order[..t])
      ensures Untouched(w, r.world, n)
    {
      ConfinedUntouched(w, r.world, Elems(order[..t]), n);
    }
    if NoDup(order) {
      forall j | t - 1 < j < |order|
        ensures Untouched(w, r.world, order[j])
      {
        assert order[j] !in Elems(order[..t]);
      }
    }
  }

  /** Up on `order` is Up on the names it tries: the rest of `order` plays
      no part. */
  lemma {:induction false} UpRunCut(w: World, b: Backend, oracle: nat -> Effect, cf: ComposeFile, order: seq<string>, ctx: Context)
    ensures var t := UpTried(w, b, oracle, cf, order, ctx);
      UpRun(w, b, oracle, cf, order, ctx) == UpRun(w, b, oracle, cf, order[..t], ctx)
    decreases |order|
  {
    var t := UpTried(w, b, oracle, cf, order, ctx);
    if order != [] {
      var x := order[0];
      assert order[..t][0] == x;
      if x in cf.services {
        var s := StartStep(w, b, oracle, x, cf.services[x], ctx);
        if s.err.None? {
          UpRunCut(s.world, b, oracle, cf, order[1..], ctx);
          assert order[..t][1..] == order[1..][..t - 1];
        }
      }
    }
  }

  /** Up touches only the names of `order`. */
  lemma {:induction false} UpRunConfined(w: World, b: Backend, oracle: nat -> Effect, cf: ComposeFile, order: seq<string>, ctx: Context)
    ensures Confined(w, UpRun(w, b, oracle, cf, order, ctx).world, Elems(order))
    decreases |order|
  {
    var r := UpRun(w, b, oracle, cf, order, ctx);
    if order == [] || order[0] !in cf.services {
      ConfinedRefl(w, Elems(order));
    } else {
      var x := order[0];
      var s := StartStep(w, b, oracle, x, cf.services[x], ctx);
      StartStepConfined(w, b, oracle, x, cf.services[x], ctx);
      ElemsCons(x, order[1..]);
      assert order == [x] + order[1..];
      if s.err.Some? {
        ConfinedWiden(w, s.world, {x}, Elems(order));
      } else {
        UpRunConfined(s.world, b, oracle, cf, order[1..], ctx);
        ConfinedTrans(w, s.world, r.world, {x}, Elems(order[1..]));
      }
    }
  }

  /** When Up succeeds, every service of the compose file is running under
      its container id. */
  lemma UpStartsAll(w: World, b: Backend, oracle: nat -> Effect, cf: ComposeFile, order: seq<string>, ctx: Context, entries: seq<string>)
    requires StartOrder(cf.services, order)
    requires UpSpec(w, b, oracle, cf, order, ctx, entries).err.None?
    ensures var r := UpSpec(w, b, oracle, cf, order, ctx, entries);
      forall k :: k in cf.services ==> k in r.world.running && r.world.running[k] == ContainerId(k)
  {
    UpRunDone(w, b, oracle, cf, order, ctx);
  }

  /** Starting order[0] and then failing at the k-th of the rest is failing
      at the k+1-th of order. */
  lemma FailedAtCons(w: World, s: World, r: Run, cf: ComposeFile, order: seq<string>, k: int)
    requires |order| > 0 && FailedAt(s, r, cf, order[1..], k)
    requires s.running == w.running[order[0] := ContainerId(order[0])]
    requires s.states.Keys == w.states.Keys + {order[0]}
    ensures FailedAt(w, r, cf, order, k + 1)
  {
    var x, rest := order[0], order[1..];
    assert order[..k + 1] == [x] + rest[..k];
    StartedCons(w.running, x, rest[..k]);
    KeysCons(w.states.Keys, x, order, k);
    KeysCons(w.states.Keys, x, order, k + 1);
  }

  /** The names of order[..j+1] are order[0] and those of order[1..][..j]. */
  lemma KeysCons(keys: set<string>, x: string, order: seq<string>, j: nat)
    requires 0 < |order| && order[0] == x && j < |order|
    ensures keys + {x} + Elems(order[1..][..j]) == keys + Elems(order[..j + 1])
  {
    assert order[..j + 1] == [x] + order[1..][..j];
    ElemsCons(x, order[1..][..j]);
  }

  lemma ElemsCons(x: string, s: seq<string>)
    ensures Elems([x] + s) == {x} + Elems(s)
  {
  }

  /** Starting x and then the rest is starting all of them. */
  lemma StartedCons(m: map<string, string>, x: string, rest: seq<string>)
    ensures m[x := ContainerId(x)] + Started(rest) == m + Started([x] + rest)
  {
    ElemsCons(x, rest);
  }

  // ---------------------------------------------------------------------
  // What a step touches
  // ---------------------------------------------------------------------

  /** A backend call concerns the service `n`: by name, or by the container
      id the executor gives it. */
  predicate Mentions(c: BackendCall, n: string) {
    match c
    case InitCall(s, _) => s == n
    case CreateCall(s) => s == n
    case StartCall(id) => id == ContainerId(n)
    case StopCall(id, _) => id == ContainerId(n)
    case RemoveCall(id) => id == ContainerId(n)
    case PostCall(s, _) => s == n
  }

  /** Every call of `calls` concerns names of `names` only. */
  ghost predicate OnlyAbout(calls: seq<BackendCall>, names: set<string>) {
    forall c, n :: c in calls && Mentions(c, n) ==> n in names
  }

  /** From w to r, only calls were added, all of them about `names`, and
      only the records and running entries of `names` changed. */
  ghost predicate Confined(w: World, r: World, names: set<string>) {
    && |w.calls| <= |r.calls| && r.calls[..|w.calls|] == w.calls
    && OnlyAbout(r.calls[|w.calls|..], names)
    && r.states - names == w.states - names
    && r.running - names == w.running - names
  }

  /** From w to r nothing concerning `n` happened: no call added mentions it,
      and its record and running entry are as they were. */
  ghost predicate Untouched(w: World, r: World, n: string) {
    && |w.calls| <= |r.calls| && r.calls[..|w.calls|] == w.calls
    && (forall c :: c in r.calls[|w.calls|..] ==> !Mentions(c, n))
    && (n in r.states <==> n in w.states) && (n in w.states ==> r.states[n] == w.states[n])
    && (n in r.running <==> n in w.running) && (n in w.running ==> r.running[n] == w.running[n])
  }

  lemma ConfinedUntouched(w: World, r: World, names: set<string>, n: string)
    requires Confined(w, r, names) && n !in names
    ensures Untouched(w, r, n)
  {
    assert n in r.states <==> n in r.states - names;
    assert n in w.states <==> n in w.states - names;
    assert n in r.running <==> n in r.running - names;
    assert n in w.running <==> n in w.running - names;
    if n in w.states {
      assert r.states[n] == (r.states - names)[n];
    }
    if n in w.running {
      assert r.running[n] == (r.running - names)[n];
    }
  }

  lemma ConfinedRefl(w: World, names: set<string>)
    ensures Confined(w, w, names)
  {
    assert w.calls[|w.calls|..] == [];
  }

  lemma ConfinedWiden(w: World, r: World, names: set<string>, more: set<string>)
    requires Confined(w, r, names) && names <= more
    ensures Confined(w, r, more)
  {
    MinusMore(r.states, w.states, names, more);
    MinusMore(r.running, w.running, names, more);
  }

  lemma ConfinedTrans(w: World, s: World, r: World, x: set<string>, y: set<string>)
    requires Confined(w, s, x) && Confined(s, r, y)
    ensures Confined(w, r, x + y)
  {
    MinusMore(s.states, w.states, x, x + y);
    MinusMore(r.states, s.states, y, x + y);
    MinusMore(s.running, w.running, x, x + y);
    MinusMore(r.running, s.running, y, x + y);
    var added := r.calls[|w.calls|..];
    assert added == s.calls[|w.calls|..] + r.calls[|s.calls|..];
    forall c, n | c in added && Mentions(c, n)
      ensures n in x + y
    {
      if c in s.calls[|w.calls|..] {
      } else {
        assert c in r.calls[|s.calls|..];
      }
    }
  }

  /** Maps that agree outside `names` agree outside any larger set. */
  lemma MinusMore<V>(a: map<string, V>, b: map<string, V>, names: set<string>, more: set<string>)
    requires a - names == b - names && names <= more
    ensures a - more == b - more
  {
    assert a - more == (a - names) - more;
    assert b - more == (b - names) - more;
  }

  lemma OnlyAboutConcat(a: seq<BackendCall>, b: seq<BackendCall>, names: set<string>)
    requires OnlyAbout(a, names) && OnlyAbout(b, names)
    ensures OnlyAbout(a + b, names)
  {
  }

  lemma InitCallsAbout(name: string, inits: seq<InitContainer>)
    ensures OnlyAbout(InitCalls(name, inits), {name})
  {
    var calls := InitCalls(name, inits);
    forall c, n | c in calls && Mentions(c, n)
      ensures n == name
    {
      var i :| 0 <= i < |calls| && calls[i] == c;
    }
  }

  lemma PostCallsAbout(name: string, posts: seq<PostContainer>, onSuccess: bool)
    ensures OnlyAbout(PostCalls(name, posts, onSuccess), {name})
  {
    PostCallsSpec(name, posts, onSuccess);
  }

  /** Creating, starting and removing a service's container are calls about
      that service. */
  lemma ContainerCallsAbout(name: string)
    ensures OnlyAbout([CreateCall(name), StartCall(ContainerId(name)), RemoveCall(ContainerId(name))], {name})
  {
    forall n | ContainerId(name) == ContainerId(n)
      ensures n == name
    {
      ContainerIdInjective(name, n);
    }
  }

  /** The init runs of a service make calls about that service only. */
  lemma InitRunAbout(b: Backend, name: string, inits: seq<InitContainer>)
    ensures OnlyAbout(InitRun(b, name, inits).calls, {name})
  {
    InitRunSpec(b, name, inits);
    var k := FirstInitFailure(b, name, inits);
    if k < |inits| {
      InitCallsAbout(name, inits[..k + 1]);
    } else {
      InitCallsAbout(name, inits);
    }
  }

  /** The backend part of a start makes calls about that service only. */
  lemma BackendStartAbout(b: Backend, name: string, svc: Service)
    ensures OnlyAbout(BackendStart(b, name, svc).calls, {name})
  {
    var init := InitRun(b, name, svc.initContainers);
    InitRunAbout(b, name, svc.initContainers);
    if init.err.None? {
      var id := ContainerId(name);
      var own := [CreateCall(name), StartCall(id), RemoveCall(id)];
      ContainerCallsAbout(name);
      assert OnlyAbout(own[..1], {name}) && OnlyAbout(own[..2], {name});
      PostCallsAbout(name, svc.postContainers, true);
      OnlyAboutConcat(init.calls, own[..1], {name});
      OnlyAboutConcat(init.calls, own, {name});
      OnlyAboutConcat(init.calls, own[..2], {name});
      OnlyAboutConcat(init.calls + own[..2], PostCalls(name, svc.postContainers, true), {name});
      assert own[..1] == [CreateCall(name)] && own[..2] == [CreateCall(name), StartCall(id)];
    }
  }

  /** startService touches its own service only. */
  lemma StartStepConfined(w: World, b: Backend, oracle: nat -> Effect, name: string, svc: Service, ctx: Context)
    ensures Confined(w, StartStep(w, b, oracle, name, svc, ctx).world, {name})
  {
    var r := StartStep(w, b, oracle, name, svc, ctx).world;
    BackendStartAbout(b, name, svc);
    if r.calls == w.calls {
      assert r.calls[|w.calls|..] == [];
    } else {
      assert r.calls[|w.calls|..] == BackendStart(b, name, svc).calls;
    }
    assert r.states - {name} == w.states - {name};
    assert r.running - {name} == w.running - {name};
  }

  /** One rollback step: stop (timeout 10) and remove the recorded container,
      then the lifecycle stop if the compose file still has the service. */
  function RollbackStep(w: World, oracle: nat -> Effect, cf: ComposeFile, snapshot: map<string, string>, name: string, ctx: Context): World {
    if name !in snapshot then w
    else
      var id := snapshot[name];
      var w1 := w.(calls := w.calls + [StopCall(id, 10), RemoveCall(id)]);
      if name in cf.services then LifecycleStop(w1, oracle, name, cf.services[name], ctx) else w1
  }

  /** rollback: a rollback step for each name of `entries`, in that order. */
  function RollbackRun(w: World, oracle: nat -> Effect, cf: ComposeFile, snapshot: map<string, string>, entries: seq<string>, ctx: Context): World
    decreases |entries|
  {
    if entries == [] then w
    else
      var last := entries[|entries| - 1];
      RollbackStep(RollbackRun(w, oracle, cf, snapshot, entries[..|entries| - 1], ctx), oracle, cf, snapshot, last, ctx)
  }

  /** Rollback leaves `running` as it was, and stops and removes the
      container of every recorded service. */
  lemma {:induction false} RollbackRunSpec(w: World, oracle: nat -> Effect, cf: ComposeFile, snapshot: map<string, string>, entries: seq<string>, ctx: Context)
    ensures var r := RollbackRun(w, oracle, cf, snapshot, entries, ctx);
      && r.running == w.running
      && w.calls <= r.calls
      && (forall n :: n in entries && n in snapshot ==>
            StopCall(snapshot[n], 10) in r.calls && RemoveCall(snapshot[n]) in r.calls)
    decreases |entries|
  {
    if entries != [] {
      var init := entries[..|entries| - 1];
      RollbackRunSpec(w, oracle, cf, snapshot, init, ctx);
      var before := RollbackRun(w, oracle, cf, snapshot, init, ctx);
      var r := RollbackRun(w, oracle, cf, snapshot, entries, ctx);
      assert before.calls <= r.calls;
      forall n | n in entries && n in snapshot
        ensures StopCall(snapshot[n], 10) in r.calls && RemoveCall(snapshot[n]) in r.calls
      {
        if n != entries[|entries| - 1] {
          assert n in init;
          assert StopCall(snapshot[n], 10) in before.calls && RemoveCall(snapshot[n]) in before.calls;
        }
      }
    }
  }

  /** Rollback keeps the set of lifecycle records, and every rolled-back
      service of the compose file that has a record ends in phase Stopped. */
  lemma {:induction false} RollbackRunStops(w: World, oracle: nat -> Effect, cf: ComposeFile, snapshot: map<string, string>, entries: seq<string>, ctx: Context)
    ensures var r := RollbackRun(w, oracle, cf, snapshot, entries, ctx);
      && r.states.Keys == w.states.Keys
      && (forall n :: n in entries && n in snapshot && n in cf.services && n in w.states ==>
            r.states[n].phase == Stopped)
    decreases |entries|
  {
    if entries != [] {
      var init, last := entries[..|entries| - 1], entries[|entries| - 1];
      RollbackRunStops(w, oracle, cf, snapshot, init, ctx);
      var r := RollbackRun(w, oracle, cf, snapshot, entries, ctx);
      forall n | n in entries && n in snapshot && n in cf.services && n in w.states
        ensures r.states[n].phase == Stopped
      {
        if n != last {
          assert n in init;
        }
      }
    }
  }

  /**
   * On a failed start, Up's rollback over every running entry leaves
   * `running` as the loop left it, stops (timeout 10) and removes every
   * running container, and leaves every rolled-back service of the compose
   * file that has a record in phase Stopped. Every running name has a
   * record when every name running before Up had one.
   */
  lemma UpRollsBack(w: World, b: Backend, oracle: nat -> Effect, cf: ComposeFile, order: seq<string>, ctx: Context, entries: seq<string>)
    requires var r0 := UpRun(w, b, oracle, cf, order, ctx);
      r0.err.Some? && r0.err.value.ServiceFailed? && Elems(entries) == r0.world.running.Keys
    ensures var r0 := UpRun(w, b, oracle, cf, order, ctx);
      var r := UpSpec(w, b, oracle, cf, order, ctx, entries);
      && r.err == r0.err
      && r.world.running == r0.world.running
      && (forall n :: n in r0.world.running ==>
            StopCall(r0.world.running[n], 10) in r.world.calls && RemoveCall(r0.world.running[n]) in r.world.calls)
      && (forall n :: n in r0.world.running && n in cf.services && n in r0.world.states ==>
            n in r.world.states && r.world.states[n].phase == Stopped)
      && (w.running.Keys <= w.states.Keys ==> r0.world.running.Keys <= r0.world.states.Keys)
  {
    var r0 := UpRun(w, b, oracle, cf, order, ctx);
    var rolled := RollbackRun(r0.world, oracle, cf, r0.world.running, entries, Context(false));
    assert UpSpec(w, b, oracle, cf, order, ctx, entries) == Run(rolled, r0.err);
    RollbackRunSpec(r0.world, oracle, cf, r0.world.running, entries, Context(false));
    RollbackRunStops(r0.world, oracle, cf, r0.world.running, entries, Context(false));
    UpRunRecords(w, b, oracle, cf, order, ctx);
  }

  /** A failed Up leaves a lifecycle record for every running name when
      every name running before it had one. */
  lemma UpRunRecords(w: World, b: Backend, oracle: nat -> Effect, cf: ComposeFile, order: seq<string>, ctx: Context)
    requires UpRun(w, b, oracle, cf, order, ctx).err.Some?
    ensures var r0 := UpRun(w, b, oracle, cf, order, ctx);
      w.running.Keys <= w.states.Keys ==> r0.world.running.Keys <= r0.world.states.Keys
  {
    var r0 := UpRun(w, b, oracle, cf, order, ctx);
    UpRunFails(w, b, oracle, cf, order, ctx);
    FailedAtRecords(w, r0, cf, order, UpTried(w, b, oracle, cf, order, ctx) - 1);
  }

  lemma FailedAtRecords(w: World, r: Run, cf: ComposeFile, order: seq<string>, k: int)
    requires FailedAt(w, r, cf, order, k)
    ensures w.running.Keys <= w.states.Keys ==> r.world.running.Keys <= r.world.states.Keys
  {
    assert order[..k + 1] == order[..k] + [order[k]];
    assert Elems(order[..k]) <= Elems(order[..k + 1]);
  }

  lemma RollbackSnoc(w: World, oracle: nat -> Effect, cf: ComposeFile, snapshot: map<string, string>, entries: seq<string>, name: string)
    ensures RollbackRun(w, oracle, cf, snapshot, entries + [name], Context(false))
      == RollbackStep(RollbackRun(w, oracle, cf, snapshot, entries, Context(false)), oracle, cf, snapshot, name, Context(false))
  {
    assert (entries + [name])[..|entries|] == entries;
  }

  lemma NoDupSnoc(s: seq<string>, x: string)
    requires NoDup(s) && x !in Elems(s)
    ensures NoDup(s + [x]) && Elems(s + [x]) == Elems(s) + {x}
  {
    ElemsSnoc(s, x);
  }

  /** Up as a whole: the loop, and on a failed start a rollback of every
      running service (in `entries` order) with a fresh context. */
  function UpSpec(w: World, b: Backend, oracle: nat -> Effect, cf: ComposeFile, order: seq<string>, ctx: Context, entries: seq<string>): Run {
    var r := UpRun(w, b, oracle, cf, order, ctx);
    if r.err.Some? && r.err.value.ServiceFailed? then
      Run(RollbackRun(r.world, oracle, cf, r.world.running, entries, Context(false)), r.err)
    else r
  }

  /** Down's loop: stop the names of `order` from last to first. A running
      name that is not in the compose file ends it (the Go code panics). */
  function DownRun(w: World, oracle: nat -> Effect, cf: ComposeFile, order: seq<string>, ctx: Context): Run
    decreases |order|
  {
    if order == [] then Run(w, None)
    else
      var name := order[|order| - 1];
      if name in cf.services then
        DownRun(StopStep(w, oracle, name, cf.services[name], ctx), oracle, cf, order[..|order| - 1], ctx)
      else if name in w.running then Run(w, Some(Crashed(name)))
      else DownRun(w, oracle, cf, order[..|order| - 1], ctx)
  }

  /** Down never fails except by the panic, and then leaves every named
      service stopped: none of them is running any more. */
  lemma {:induction false} DownRunSpec(w: World, oracle: nat -> Effect, cf: ComposeFile, order: seq<string>, ctx: Context)
    ensures var r := DownRun(w, oracle, cf, order, ctx);
      && (r.err.Some? ==> r.err.value.Crashed?)
      && (r.err.None? ==> r.world.running == w.running - Elems(order))
    decreases |order|
  {
    if order != [] {
      var name := order[|order| - 1];
      var init := order[..|order| - 1];
      assert Elems(order) == Elems(init) + {name} by {
        assert order == init + [name];
      }
      if name in cf.services {
        var w1 := StopStep(w, oracle, name, cf.services[name], ctx);
        StopStepSpec(w, oracle, name, cf.services[name], ctx);
        DownRunSpec(w1, oracle, cf, init, ctx);
      } else if name !in w.running {
        DownRunSpec(w, oracle, cf, init, ctx);
      }
    }
  }

  /**
   * Down keeps every earlier call and every lifecycle record, and a stopped
   * record stays stopped. When it ends without the panic, every named
   * service of the compose file that was running has had its container
   * stopped (timeout 30) and removed, and its record, if any, is Stopped.
   */
  lemma {:induction false} DownStopsAll(w: World, oracle: nat -> Effect, cf: ComposeFile, order: seq<string>, ctx: Context)
    ensures var r := DownRun(w, oracle, cf, order, ctx).world;
      && w.calls <= r.calls
      && r.states.Keys == w.states.Keys
      && (forall n :: n in w.states && w.states[n].phase == Stopped ==> r.states[n].phase == Stopped)
    ensures var r := DownRun(w, oracle, cf, order, ctx);
      r.err.None? ==> forall n :: n in order && n in cf.services && n in w.running ==>
        && StopCall(w.running[n], 30) in r.world.calls
        && RemoveCall(w.running[n]) in r.world.calls
        && (n in w.states ==> r.world.states[n].phase == Stopped)
    decreases |order|
  {
    if order != [] {
      var name, init := order[|order| - 1], order[..|order| - 1];
      var r := DownRun(w, oracle, cf, order, ctx);
      if name in cf.services {
        var w1 := StopStep(w, oracle, name, cf.services[name], ctx);
        StopStepSpec(w, oracle, name, cf.services[name], ctx);
        DownStopsAll(w1, oracle, cf, init, ctx);
        if r.err.None? {
          forall n | n in order && n in cf.services && n in w.running
            ensures StopCall(w.running[n], 30) in r.world.calls && RemoveCall(w.running[n]) in r.world.calls
            ensures n in w.states ==> r.world.states[n].phase == Stopped
          {
            if n == name {
              PrefixHas(w1.calls, r.world.calls, StopCall(w.running[n], 30));
              PrefixHas(w1.calls, r.world.calls, RemoveCall(w.running[n]));
            } else {
              assert n in init;
            }
          }
        }
      } else if name !in w.running {
        DownStopsAll(w, oracle, cf, init, ctx);
        if r.err.None? {
          forall n | n in order && n in cf.services && n in w.running
            ensures n in init
          {
          }
        }
      } else {
        assert w.calls[..|w.calls|] == w.calls;
      }
    }
  }

  lemma PrefixHas(a: seq<BackendCall>, b: seq<BackendCall>, c: BackendCall)
    requires a <= b && c in a
    ensures c in b
  {
    var i :| 0 <= i < |a| && a[i] == c;
    assert b[i] == c;
  }

  // ---------------------------------------------------------------------
  // The executor
  // ---------------------------------------------------------------------

  /**
   * The Executor: the running services (name to container id), the calls it
   * has made on its container backend, and the lifecycle manager it drives.
   */
  class Executor {
    var running: map<string, string>
    var calls: seq<BackendCall>
    const backend: Backend
    const lifecycle: Manager

    /** The executor with nothing running and a fresh lifecycle manager. */
    constructor (backend: Backend, oracle: nat -> Effect)
      ensures running == map[] && calls == [] && this.backend == backend
      ensures fresh(lifecycle) && lifecycle.oracle == oracle
      ensures lifecycle.services == map[] && lifecycle.hookClock == 0
    {
      this.backend := backend;
      running := map[];
      calls := [];
      lifecycle := new Manager(oracle);
    }

    function State(): World
      reads this, lifecycle
    {
      World(running, calls, lifecycle.services, lifecycle.hookClock)
    }

    /** startService: see StartStep. */
    method StartService(name: string, svc: Service, ctx: Context) returns (err: Option<StartError>)
      modifies this, lifecycle
      ensures var r := StartStep(old(State()), backend, lifecycle.oracle, name, svc, ctx);
        State() == r.world && err == r.err
    {
      var lcErr := lifecycle.StartService(name, svc, ctx);
      if lcErr.Some? {
        return Some(LifecycleFailed(lcErr.value));
      }
      err := StartContainers(name, svc);
    }

    /** The backend part of startService: see BackendStart. */
    method StartContainers(name: string, svc: Service) returns (err: Option<StartError>)
      modifies this
      ensures var br := BackendStart(backend, name, svc);
        && calls == old(calls) + br.calls && err == br.err
        && running == if br.err.None? then old(running)[name := ContainerId(name)] else old(running)
    {
      err := RunInits(name, svc.initContainers);
      if err.Some? {
        return;
      }
      var created := backend.CreateService(name);
      calls := calls + [CreateCall(name)];
      if created.Failure? {
        return Some(CreateFailed(created.error));
      }
      var id := created.value;
      var started := backend.StartContainer(id);
      calls := calls + [StartCall(id)];
      if started.Fail? {
        var _ := RemoveContainer(id);
        calls := calls + [RemoveCall(id)];
        return Some(ContainerStartFailed(started.error));
      }
      running := running[name := id];
      RunPosts(name, svc.postContainers, true);
      err := None;
    }

    /** The init containers of startService, in order, until one fails. */
    method RunInits(name: string, inits: seq<InitContainer>) returns (err: Option<StartError>)
      modifies this
      ensures var r := InitRun(backend, name, inits);
        calls == old(calls) + r.calls && err == r.err && running == old(running)
    {
      InitRunSpec(backend, name, inits);
      ghost var k := FirstInitFailure(backend, name, inits);
      ghost var calls0, running0 := calls, running;
      for i := 0 to |inits|
        invariant i <= k
        invariant calls == calls0 + InitCalls(name, inits[..i]) && running == running0
      {
        var outcome := backend.RunInitContainer(name, inits[i]);
        InitCallsSnoc(name, inits, i);
        calls := calls + [InitCall(name, inits[i].name)];
        if outcome.Fail? {
          return Some(InitFailed(inits[i].name, outcome.error));
        }
      }
      assert inits[..|inits|] == inits;
      err := None;
    }

    /** The post containers whose flag matches the path, in order; their
        failures are only logged. */
    method RunPosts(name: string, posts: seq<PostContainer>, onSuccess: bool)
      modifies this
      ensures calls == old(calls) + PostCalls(name, posts, onSuccess) && running == old(running)
    {
      for i := 0 to |posts|
        invariant old(calls) + PostCalls(name, posts, onSuccess) == calls + PostCalls(name, posts[i..], onSuccess)
        invariant running == old(running)
      {
        assert posts[i..][1..] == posts[i + 1..];
        if Selected(posts[i], onSuccess) {
          // A failing post container is only logged.
          var _ := RunPostContainer(name, posts[i]);
          calls := calls + [PostCall(name, posts[i].name)];
        }
      }
    }

    /** stopService: see StopStep. */
    method StopService(name: string, svc: Service, ctx: Context)
      modifies this, lifecycle
      ensures State() == StopStep(old(State()), lifecycle.oracle, name, svc, ctx)
    {
      if name !in running {
        return;
      }
      var id := running[name];
      var _ := lifecycle.StopService(name, svc, ctx);
      // Stop and remove failures are only logged.
      var _ := StopContainer(id, 30);
      var _ := RemoveContainer(id);
      calls := calls + [StopCall(id, 30), RemoveCall(id)];
      RunPosts(name, svc.postContainers, false);
      running := running - {name};
    }

    /**
     * rollback: takes a snapshot of `running` and, for each entry in the
     * map's enumeration order (`entries`), stops and removes its container
     * and stops the service in the lifecycle manager.
     */
    method Rollback(cf: ComposeFile) returns (ghost entries: seq<string>)
      modifies this, lifecycle
      ensures NoDup(entries) && Elems(entries) == old(running).Keys
      ensures State() == RollbackRun(old(State()), lifecycle.oracle, cf, old(running), entries, Context(false))
    {
      var snapshot := running;
      var left := snapshot.Keys;
      ghost var w0, oracle := State(), lifecycle.oracle;
      entries := [];
      while left != {}
        invariant left == snapshot.Keys - Elems(entries)
        invariant NoDup(entries) && Elems(entries) <= snapshot.Keys
        invariant State() == RollbackRun(w0, oracle, cf, snapshot, entries, Context(false))
        decreases |left|
      {
        var name :| name in left;
        RollbackEntry(cf, snapshot, name);
        RollbackSnoc(w0, oracle, cf, snapshot, entries, name);
        NoDupSnoc(entries, name);
        entries := entries + [name];
        left := left - {name};
      }
    }

    /** One entry of rollback: stop (timeout 10) and remove its container,
        then stop the service if the compose file has it. */
    method RollbackEntry(cf: ComposeFile, snapshot: map<string, string>, name: string)
      requires name in snapshot
      modifies this, lifecycle
      ensures State() == RollbackStep(old(State()), lifecycle.oracle, cf, snapshot, name, Context(false))
    {
      var id := snapshot[name];
      var _ := StopContainer(id, 10);
      var _ := RemoveContainer(id);
      calls := calls + [StopCall(id, 10), RemoveCall(id)];
      if name in cf.services {
        var _ := lifecycle.StopService(name, cf.services[name], Context(false));
      }
    }

    /** Up: orders the services, starts them in turn and, on the first
        failed start, rolls back and reports it. */
    method Up(cf: ComposeFile, names: seq<string>, ctx: Context)
      returns (err: Option<ExecError>, ghost order: seq<string>, ghost entries: seq<string>)
      requires forall k :: k in names <==> k in cf.services
      modifies this, lifecycle
      ensures StartOrder(cf.services, order)
      ensures var r := UpSpec(old(State()), backend, lifecycle.oracle, cf, order, ctx, entries);
        State() == r.world && err == r.err
      ensures err.Some? && err.value.ServiceFailed? ==>
        NoDup(entries) && Elems(entries) == UpRun(old(State()), backend, lifecycle.oracle, cf, order, ctx).world.running.Keys
    {
      var ordered := OrderServices(cf.services, names);
      order := ordered;
      entries := [];
      for i := 0 to |ordered|
        invariant UpRun(old(State()), backend, lifecycle.oracle, cf, ordered, ctx)
          == UpRun(State(), backend, lifecycle.oracle, cf, ordered[i..], ctx)
      {
        assert ordered[i..][1..] == ordered[i + 1..];
        var name := ordered[i];
        if name !in cf.services {
          return Some(Crashed(name)), order, entries;
        }
        var e := StartService(name, cf.services[name], ctx);
        if e.Some? {
          entries := Rollback(cf);
          return Some(ServiceFailed(name, e.value)), order, entries;
        }
      }
      err := None;
    }

    /** Down: orders the services and stops them from last to first. */
    method Down(cf: ComposeFile, names: seq<string>, ctx: Context)
      returns (err: Option<ExecError>, ghost order: seq<string>)
      requires forall k :: k in names <==> k in cf.services
      modifies this, lifecycle
      ensures StartOrder(cf.services, order)
      ensures var r := DownRun(old(State()), lifecycle.oracle, cf, order, ctx);
        State() == r.world && err == r.err
    {
      var ordered := OrderServices(cf.services, names);
      order := ordered;
      var i := |ordered|;
      assert ordered[..i] == ordered;
      while i > 0
        invariant 0 <= i <= |ordered|
        invariant DownRun(old(State()), lifecycle.oracle, cf, ordered, ctx)
          == DownRun(State(), lifecycle.oracle, cf, ordered[..i], ctx)
      {
        assert ordered[..i][..i - 1] == ordered[..i - 1];
        var name := ordered[i - 1];
        if name in cf.services {
          StopService(name, cf.services[name], ctx);
        } else if name in running {
          return Some(Crashed(name)), order;
        }
        i := i - 1;
      }
      err := None;
    }

    /** Close closes the container backend. */
    method Close() returns (r: Outcome<string>)
      ensures r == Pass
    {
      r := Container.Close();
    }
  }

  /** New: an executor over the compiled-in container backend. */
  method New(oracle: nat -> Effect) returns (r: Result<Executor, string>)
    ensures r.Success? && fresh(r.value) && fresh(r.value.lifecycle)
    ensures r.value.backend == Stub() && r.value.running == map[] && r.value.calls == []
    ensures r.value.lifecycle.oracle == oracle && r.value.lifecycle.services == map[]
  {
    var backend := NewManager();
    // NewManager of the compiled-in backend never fails, so Go's error
    // return is never taken.
    assert backend.Success?;
    var e := new Executor(backend.value, oracle);
    r := Success(e);
  }
}

=== FILE: hooks.dfy ===
/**
 * The hook runner (pkg/hooks/executor.go).
 *
 * What running a hook does to the world (spawning a process, running a
 * script, an HTTP round trip) is an oracle: `oracle(t)` is the answer to
 * the t-th hook invocation. Every invocation of ExecuteHook uses exactly one
 * slot, so `next - t` counts invocations.
 */
module Hooks {
  import opened Wrappers
  import opened Compose

  /** The world's answer to one invocation: the command, script or request
      could not complete (`Broken`), or it completed; for an HTTP hook
      `Done` carries the response status. */
  datatype Effect = Broken | Done(status: int)

  datatype HookError =
    | UnknownType(kind: string)
    | MissingCommand
    | MissingScript
    | MissingURL
    | MissingExecTarget
    | CommandFailed
    | ScriptFailed
    | RequestFailed
    | BadStatus(status: int)
  {
    /** A payload check that fails before any effect is attempted. */
    predicate IsPrecondition() {
      MissingCommand? || MissingScript? || MissingURL? || MissingExecTarget?
    }
  }

  /** A failure attributed to the hook that caused it ("hook %s failed: %w"). */
  datatype HookFailure = HookFailure(hook: string, cause: HookError)

  /** The payload the hook's type requires is present. */
  predicate PayloadPresent(h: Hook) {
    match h.kind
    case Command => |h.command| > 0
    case Script => h.script != ""
    case Http => h.http.Some? && h.http.value.url != ""
    case Exec => h.exec.Some? && h.exec.value.container != "" && |h.exec.value.command| > 0
    case Other(_) => false
  }

  /** The method an HTTP hook's request uses. */
  function RequestMethod(h: HTTPHook): (m: string)
    ensures m != ""
    ensures h.verb != "" ==> m == h.verb
    ensures h.verb == "" ==> m == "GET"
  {
    if h.verb == "" then "GET" else h.verb
  }

  /** A response status that makes an HTTP hook fail. */
  predicate IsErrorStatus(status: int) {
    status >= 400
  }

  /** Whether the effect of a well-formed hook of this kind succeeded. */
  predicate EffectSucceeds(kind: HookKind, answer: Effect) {
    kind.Exec? || (answer.Done? && (kind.Http? ==> !IsErrorStatus(answer.status)))
  }

  /** One invocation: dispatch on the type, check the payload, then perform
      the effect (whose result is `answer`). */
  function ExecuteHook(h: Hook, answer: Effect): (r: Outcome<HookError>)
    ensures r.Pass? <==> PayloadPresent(h) && EffectSucceeds(h.kind, answer)
    ensures h.kind.Other? ==> r == Fail(UnknownType(h.kind.tag))
    ensures !h.kind.Other? ==> (r.Fail? && r.error.IsPrecondition() <==> !PayloadPresent(h))
    ensures r.Fail? && r.error.BadStatus? ==> h.kind.Http? && answer == Done(r.error.status) && r.error.status >= 400
  {
    match h.kind
    case Command =>
      if |h.command| == 0 then Fail(MissingCommand)
      else if answer.Broken? then Fail(CommandFailed)
      else Pass
    case Script =>
      if h.script == "" then Fail(MissingScript)
      else if answer.Broken? then Fail(ScriptFailed)
      else Pass
    case Http =>
      if h.http.None? || h.http.value.url == "" then Fail(MissingURL)
      else if answer.Broken? then Fail(RequestFailed)
      else if IsErrorStatus(answer.status) then Fail(BadStatus(answer.status))
      else Pass
    case Exec =>
      if h.exec.None? || h.exec.value.container == "" || |h.exec.value.command| == 0 then Fail(MissingExecTarget)
      else Pass
    case Other(tag) => Fail(UnknownType(tag))
  }

  /** A well-formed exec hook succeeds whatever the oracle says; an unknown
      type or a missing payload fails whatever it says. */
  lemma ExecuteHookIgnoresOracle(h: Hook, a: Effect, b: Effect)
    requires !PayloadPresent(h) || h.kind.Exec?
    ensures ExecuteHook(h, a) == ExecuteHook(h, b)
    ensures h.kind.Exec? && PayloadPresent(h) ==> ExecuteHook(h, a) == Pass
  {
  }

  /** How many times a hook may be invoked: once, plus Retries when positive. */
  function Budget(h: Hook): (n: nat)
    ensures n >= 1
    ensures h.retries > 0 ==> n == 1 + h.retries
    ensures h.retries <= 0 ==> n == 1
  {
    if h.retries > 0 then 1 + h.retries else 1
  }

  /** The retry delays (in seconds) slept before retries from+1 .. from+n. */
  function Delays(from: nat, n: nat): (d: seq<nat>)
    ensures |d| == n
    ensures forall k :: 0 <= k < n ==> d[k] == from + k + 1
  {
    seq(n, k => from + k + 1)
  }

  /** The outcome of running one hook with its retries: the final error (None
      if some attempt succeeded), the next oracle slot, and the delays slept. */
  datatype HookRun = HookRun(err: Option<HookError>, next: nat, delays: seq<nat>)

  /**
   * Attempt number i (0 is the first call, i > 0 is retry i) happens at slot t,
   * all earlier attempts having failed.
   */
  function RetryFrom(h: Hook, oracle: nat -> Effect, t: nat, i: nat): (r: HookRun)
    requires i < Budget(h)
    decreases Budget(h) - i
    ensures t < r.next <= t + (Budget(h) - i)
  {
    var res := ExecuteHook(h, oracle(t));
    if res.Pass? then HookRun(None, t + 1, [])
    else if i + 1 == Budget(h) then HookRun(Some(res.error), t + 1, [])
    else
      var rest := RetryFrom(h, oracle, t + 1, i + 1);
      HookRun(rest.err, rest.next, [i + 1] + rest.delays)
  }

  /**
   * The run from attempt i on: it ends at the first attempt that succeeds, or
   * after the last allowed attempt with that attempt's error; every earlier
   * attempt failed; the delays slept are i+1, i+2, ... one per retry made.
   */
  lemma {:induction false} RetryFromSpec(h: Hook, oracle: nat -> Effect, t: nat, i: nat)
    requires i < Budget(h)
    decreases Budget(h) - i
    ensures var r := RetryFrom(h, oracle, t, i);
      && (r.err.None? <==> ExecuteHook(h, oracle(r.next - 1)).Pass?)
      && (r.err.Some? ==> r.err.value == ExecuteHook(h, oracle(r.next - 1)).error)
      && (r.err.Some? ==> r.next == t + (Budget(h) - i))
      && (forall j :: t <= j < r.next - 1 ==> ExecuteHook(h, oracle(j)).Fail?)
      && r.delays == Delays(i, r.next - 1 - t)
  {
    var res := ExecuteHook(h, oracle(t));
    if res.Fail? && i + 1 < Budget(h) {
      RetryFromSpec(h, oracle, t + 1, i + 1);
      var rest := RetryFrom(h, oracle, t + 1, i + 1);
      assert [i + 1] + Delays(i + 1, rest.next - 1 - (t + 1)) == Delays(i, rest.next - 1 - t);
    }
  }

  /** A hook's whole run: it is invoked at most Budget(h) times, it stops at
      the first success, and retry k is preceded by a delay of k seconds. */
  lemma RunHookBounds(h: Hook, oracle: nat -> Effect, t: nat)
    ensures var r := RetryFrom(h, oracle, t, 0);
      && 1 <= r.next - t <= Budget(h)
      && (h.retries <= 0 ==> r.next == t + 1)
      && (r.err.None? <==> exists j :: t <= j < t + Budget(h) && ExecuteHook(h, oracle(j)).Pass?)
      && (forall k :: 0 <= k < |r.delays| ==> r.delays[k] == k + 1)
      && |r.delays| == r.next - t - 1
  {
    RetryFromSpec(h, oracle, t, 0);
    var r := RetryFrom(h, oracle, t, 0);
    if r.err.None? {
      assert ExecuteHook(h, oracle(r.next - 1)).Pass?;
    }
  }

  /** The outcome of a whole list: the attributed failure (if any), the next
      oracle slot and the delays slept, in order. */
  datatype BatchRun = BatchRun(err: Option<HookFailure>, next: nat, delays: seq<nat>)

  /** Runs hooks in order; the first hook that still fails after its retries
      ends the list. */
  function RunHooks(hooks: seq<Hook>, oracle: nat -> Effect, t: nat): (r: BatchRun)
    decreases |hooks|
  {
    if hooks == [] then BatchRun(None, t, [])
    else
      var first := RetryFrom(hooks[0], oracle, t, 0);
      if first.err.Some? then BatchRun(Some(HookFailure(hooks[0].name, first.err.value)), first.next, first.delays)
      else
        var rest := RunHooks(hooks[1..], oracle, first.next);
        BatchRun(rest.err, rest.next, first.delays + rest.delays)
  }

  /** The oracle slot at which hook i of the list starts, had every earlier
      hook run (successful or not). */
  function HookStart(hooks: seq<Hook>, oracle: nat -> Effect, t: nat, i: nat): (s: nat)
    requires i <= |hooks|
    decreases i
    ensures s >= t + i
  {
    if i == 0 then t
    else HookStart(hooks[1..], oracle, RetryFrom(hooks[0], oracle, t, 0).next, i - 1)
  }

  /** Whether hook i, started at its slot, eventually succeeds. */
  predicate EventuallySucceeds(hooks: seq<Hook>, oracle: nat -> Effect, t: nat, i: nat)
    requires i < |hooks|
  {
    RetryFrom(hooks[i], oracle, HookStart(hooks, oracle, t, i), 0).err.None?
  }

  /**
   * The list succeeds iff every hook eventually succeeds, and then every hook
   * ran. Otherwise the first hook that fails is the one named by the error,
   * and no invocation happens after its last attempt.
   */
  lemma {:induction false} RunHooksFailFast(hooks: seq<Hook>, oracle: nat -> Effect, t: nat)
    ensures RunHooks(hooks, oracle, t).err.None? <==>
      forall i :: 0 <= i < |hooks| ==> EventuallySucceeds(hooks, oracle, t, i)
    ensures RunHooks(hooks, oracle, t).err.None? ==> RunHooks(hooks, oracle, t).next == HookStart(hooks, oracle, t, |hooks|)
    ensures forall k :: (0 <= k < |hooks| && !EventuallySucceeds(hooks, oracle, t, k) &&
        (forall i :: 0 <= i < k ==> EventuallySucceeds(hooks, oracle, t, i))) ==>
      && RunHooks(hooks, oracle, t).err.Some?
      && RunHooks(hooks, oracle, t).err.value.hook == hooks[k].name
      && RunHooks(hooks, oracle, t).next == HookStart(hooks, oracle, t, k + 1)
  {
    if hooks != [] {
      var first := RetryFrom(hooks[0], oracle, t, 0);
      var tail := hooks[1..];
      RunHooksFailFast(tail, oracle, first.next);
      assert EventuallySucceeds(hooks, oracle, t, 0) == first.err.None?;
      assert HookStart(hooks, oracle, t, 1) == first.next;
      forall i | 1 <= i <= |hooks|
        ensures HookStart(hooks, oracle, t, i) == HookStart(tail, oracle, first.next, i - 1)
        ensures i < |hooks| ==> EventuallySucceeds(hooks, oracle, t, i) == EventuallySucceeds(tail, oracle, first.next, i - 1)
      {
        if i < |hooks| {
          assert hooks[i] == tail[i - 1];
        }
      }
      if first.err.None? {
        forall k | 0 <= k < |hooks| && !EventuallySucceeds(hooks, oracle, t, k) &&
            (forall i :: 0 <= i < k ==> EventuallySucceeds(hooks, oracle, t, i))
          ensures RunHooks(hooks, oracle, t).err.Some?
          ensures RunHooks(hooks, oracle, t).err.value.hook == hooks[k].name
          ensures RunHooks(hooks, oracle, t).next == HookStart(hooks, oracle, t, k + 1)
        {
          assert k >= 1;
          assert hooks[k] == tail[k - 1];
          forall i | 0 <= i < k - 1
            ensures EventuallySucceeds(tail, oracle, first.next, i)
          {
            assert EventuallySucceeds(hooks, oracle, t, i + 1);
          }
        }
        if RunHooks(hooks, oracle, t).err.Some? {
          var j :| 0 <= j < |tail| && !EventuallySucceeds(tail, oracle, first.next, j);
          assert !EventuallySucceeds(hooks, oracle, t, j + 1);
        }
      }
    }
  }

  /** Prefixes already-slept delays to the rest of a list's run. */
  function After(slept: seq<nat>, r: BatchRun): (s: BatchRun)
    ensures s.err == r.err && s.next == r.next && s.delays == slept + r.delays
  {
    BatchRun(r.err, r.next, slept + r.delays)
  }

  lemma AfterAfter(d1: seq<nat>, d2: seq<nat>, r: BatchRun)
    ensures After(d1, After(d2, r)) == After(d1 + d2, r)
  {
    assert d1 + (d2 + r.delays) == (d1 + d2) + r.delays;
  }

  /** Prefixes already-slept delays to the rest of a hook's run. */
  function Slept(slept: seq<nat>, r: HookRun): (s: HookRun)
    ensures s.err == r.err && s.next == r.next && s.delays == slept + r.delays
  {
    HookRun(r.err, r.next, slept + r.delays)
  }

  /** The rest of a hook's run once attempt i, made at slot t - 1, has failed with e. */
  function AfterFailure(h: Hook, oracle: nat -> Effect, t: nat, i: nat, e: HookError): (r: HookRun)
    requires i < Budget(h)
  {
    if i + 1 == Budget(h) then HookRun(Some(e), t, [])
    else
      var rest := RetryFrom(h, oracle, t, i + 1);
      HookRun(rest.err, rest.next, [i + 1] + rest.delays)
  }

  /**
   * One hook with its retries: the first call, then, while it keeps failing
   * and retries remain, a delay of k seconds before retry k. Returns the last
   * error (None once a call succeeded), the next oracle slot and the delays.
   */
  method RetryHook(hook: Hook, oracle: nat -> Effect, t0: nat)
    returns (err: Option<HookError>, t: nat, slept: seq<nat>)
    ensures HookRun(err, t, slept) == RetryFrom(hook, oracle, t0, 0)
  {
    slept := [];
    var e := ExecuteHook(hook, oracle(t0));
    t := t0 + 1;
    if e.Pass? {
      return None, t, slept;
    }
    var cause := e.error;
    if hook.retries > 0 {
      var i := 0;
      while i < hook.retries
        invariant 0 <= i <= hook.retries
        invariant t == t0 + i + 1
        invariant RetryFrom(hook, oracle, t0, 0) == Slept(slept, AfterFailure(hook, oracle, t, i, cause))
      {
        slept := slept + [i + 1];
        e := ExecuteHook(hook, oracle(t));
        t := t + 1;
        if e.Pass? {
          return None, t, slept;
        }
        cause := e.error;
        i := i + 1;
      }
    }
    err := Some(cause);
  }

  /** The run of the hooks from position n: hook n with its retries, then,
      if it succeeded, the rest. */
  lemma RunHooksStep(hooks: seq<Hook>, oracle: nat -> Effect, t: nat, n: nat)
    requires n < |hooks|
    ensures var first := RetryFrom(hooks[n], oracle, t, 0);
      RunHooks(hooks[n..], oracle, t) ==
        if first.err.Some? then BatchRun(Some(HookFailure(hooks[n].name, first.err.value)), first.next, first.delays)
        else After(first.delays, RunHooks(hooks[n + 1..], oracle, first.next))
  {
    assert hooks[n..][0] == hooks[n] && hooks[n..][1..] == hooks[n + 1..];
  }

  /**
   * Runs the hooks in order, each with its retries; returns the attributed
   * failure of the first hook that still fails, the next oracle slot and the
   * delays slept between attempts.
   */
  method ExecuteHooks(hooks: seq<Hook>, oracle: nat -> Effect, t0: nat)
    returns (err: Option<HookFailure>, t: nat, delays: seq<nat>)
    ensures BatchRun(err, t, delays) == RunHooks(hooks, oracle, t0)
  {
    t, delays := t0, [];
    for n := 0 to |hooks|
      invariant RunHooks(hooks, oracle, t0) == After(delays, RunHooks(hooks[n..], oracle, t))
    {
      var hook := hooks[n];
      RunHooksStep(hooks, oracle, t, n);
      var cause, next, slept := RetryHook(hook, oracle, t);
      AfterAfter(delays, slept, RunHooks(hooks[n + 1..], oracle, next));
      t, delays := next, delays + slept;
      if cause.Some? {
        return Some(HookFailure(hook.name, cause.value)), t, delays;
      }
    }
    err := None;
  }

  /** What the results-collecting runner reports for one hook. */
  datatype HookResult = HookResult(hookName: string, success: bool, error: Option<HookError>)

  /** The result recorded for one invocation: Success is `err == nil` and
      Error is the error ExecuteHook returned. */
  function ResultOf(h: Hook, answer: Effect): (r: HookResult)
    ensures r.hookName == h.name
    ensures r.success <==> r.error.None?
  {
    var e := ExecuteHook(h, answer);
    HookResult(h.name, e.Pass?, if e.Fail? then Some(e.error) else None)
  }

  /** Whether the results-collecting runner stops after this result. */
  predicate StopsAfter(h: Hook, r: HookResult) {
    !r.success && h.retries == 0
  }

  /** The results from hook n on, hook n being invoked at slot t: one result
      per hook invoked (once each, no retries), stopping after the first
      failure of a hook whose Retries is exactly zero. */
  function CollectFrom(hooks: seq<Hook>, oracle: nat -> Effect, t: nat, n: nat): (rs: seq<HookResult>)
    requires n <= |hooks|
    decreases |hooks| - n
    ensures |rs| <= |hooks| - n
  {
    if n == |hooks| then []
    else
      var r := ResultOf(hooks[n], oracle(t));
      if StopsAfter(hooks[n], r) then [r]
      else [r] + CollectFrom(hooks, oracle, t + 1, n + 1)
  }

  /** The results of the whole list, its first hook invoked at slot t. */
  function CollectResults(hooks: seq<Hook>, oracle: nat -> Effect, t: nat): (rs: seq<HookResult>)
    ensures |rs| <= |hooks|
  {
    CollectFrom(hooks, oracle, t, 0)
  }

  /** Result i belongs to hook i and reflects its single invocation at slot
      t + i. */
  lemma CollectResultsSpec(hooks: seq<Hook>, oracle: nat -> Effect, t: nat)
    ensures var rs := CollectResults(hooks, oracle, t);
      forall i :: 0 <= i < |rs| ==> rs[i] == ResultOf(hooks[i], oracle(t + i))
  {
    forall i | 0 <= i < |CollectResults(hooks, oracle, t)|
      ensures CollectResults(hooks, oracle, t)[i] == ResultOf(hooks[i], oracle(t + i))
    {
      CollectResultAt(hooks, oracle, t, 0, i);
    }
  }

  lemma {:induction false} CollectResultAt(hooks: seq<Hook>, oracle: nat -> Effect, t: nat, n: nat, i: nat)
    requires n <= |hooks|
    requires i < |CollectFrom(hooks, oracle, t, n)|
    ensures CollectFrom(hooks, oracle, t, n)[i] == ResultOf(hooks[n + i], oracle(t + i))
    decreases i
  {
    if i > 0 {
      var r := ResultOf(hooks[n], oracle(t));
      var tail := CollectFrom(hooks, oracle, t + 1, n + 1);
      assert CollectFrom(hooks, oracle, t, n) == [r] + tail;
      CollectResultAt(hooks, oracle, t + 1, n + 1, i - 1);
      assert n + 1 + (i - 1) == n + i && t + 1 + (i - 1) == t + i;
    }
  }

  /** The runner goes on past any failure except one of a hook with
      Retries == 0, and a short list ends with exactly such a failure. */
  lemma CollectResultsStops(hooks: seq<Hook>, oracle: nat -> Effect, t: nat)
    ensures var rs := CollectResults(hooks, oracle, t);
      && (forall i :: 0 <= i < |rs| - 1 ==> !StopsAfter(hooks[i], rs[i]))
      && (|rs| < |hooks| ==> |rs| > 0 && StopsAfter(hooks[|rs| - 1], rs[|rs| - 1]))
  {
    CollectFromStops(hooks, oracle, t, 0);
  }

  lemma {:induction false} CollectFromStops(hooks: seq<Hook>, oracle: nat -> Effect, t: nat, n: nat)
    requires n <= |hooks|
    decreases |hooks| - n
    ensures var rs := CollectFrom(hooks, oracle, t, n);
      && (forall i :: 0 <= i < |rs| - 1 ==> !StopsAfter(hooks[n + i], rs[i]))
      && (|rs| < |hooks| - n ==> |rs| > 0 && StopsAfter(hooks[n + |rs| - 1], rs[|rs| - 1]))
  {
    if n < |hooks| {
      var r := ResultOf(hooks[n], oracle(t));
      if !StopsAfter(hooks[n], r) {
        var tail := CollectFrom(hooks, oracle, t + 1, n + 1);
        CollectFromStops(hooks, oracle, t + 1, n + 1);
        var rs := [r] + tail;
        assert CollectFrom(hooks, oracle, t, n) == rs;
        forall i | 1 <= i < |rs| - 1
          ensures !StopsAfter(hooks[n + i], rs[i])
        {
          assert rs[i] == tail[i - 1] && n + i == (n + 1) + (i - 1);
        }
        if |rs| < |hooks| - n {
          assert rs[|rs| - 1] == tail[|tail| - 1] && n + |rs| - 1 == (n + 1) + |tail| - 1;
        }
      }
    }
  }

  /** The results-collecting runner, as a loop that appends to the results. */
  method ExecuteHooksWithResults(hooks: seq<Hook>, oracle: nat -> Effect, t0: nat)
    returns (results: seq<HookResult>, t: nat)
    ensures results == CollectResults(hooks, oracle, t0)
    ensures t == t0 + |results|
  {
    results, t := [], t0;
    ghost var all := CollectResults(hooks, oracle, t0);
    for n := 0 to |hooks|
      invariant t == t0 + n && |results| == n
      invariant all == results + CollectFrom(hooks, oracle, t, n)
    {
      var result := ResultOf(hooks[n], oracle(t));
      CollectStep(hooks, oracle, all, results, n, t, result);
      results, t := results + [result], t + 1;
      if StopsAfter(hooks[n], result) {
        return;
      }
    }
    assert results + [] == results;
  }

  /** The loop step above: appending the n-th result keeps the remaining
      runs in step, and when it stops the runner the results are complete. */
  lemma CollectStep(hooks: seq<Hook>, oracle: nat -> Effect, all: seq<HookResult>, results: seq<HookResult>, n: nat, t: nat, r: HookResult)
    requires n < |hooks| && r == ResultOf(hooks[n], oracle(t))
    requires all == results + CollectFrom(hooks, oracle, t, n)
    ensures StopsAfter(hooks[n], r) ==> all == results + [r]
    ensures !StopsAfter(hooks[n], r) ==> all == (results + [r]) + CollectFrom(hooks, oracle, t + 1, n + 1)
  {
    if !StopsAfter(hooks[n], r) {
      var rest := CollectFrom(hooks, oracle, t + 1, n + 1);
      assert results + ([r] + rest) == (results + [r]) + rest;
    }
  }
}

=== FILE: hooks_as_written.dfy ===
/**
 * The HTTP hook of pkg/hooks/executor.go as it is written, beside the
 * intended behaviour that the rest of the model uses (Hooks.ExecuteHook and
 * Hooks.RunHooks).
 *
 * executeHTTPHook declares its request body as a `*bytes.Buffer` and sets it
 * only when the hook has a body. Otherwise the nil pointer reaches
 * http.NewRequestWithContext inside a non-nil `io.Reader`; once net/http has
 * accepted the method and the URL, it takes its `*bytes.Buffer` branch and
 * reads the length through the nil pointer, which panics. Nothing in the
 * program recovers from it.
 */
module HooksAsWritten {
  import opened Wrappers
  import opened Compose
  import opened Hooks

  /** A character net/http accepts in a request method: a token character of
      section 3.2.6 of RFC 7230. */
  predicate IsTokenChar(c: char) {
    ('0' <= c <= '9') || ('a' <= c <= 'z') || ('A' <= c <= 'Z') || c in "!#$%&'*+-.^_`|~"
  }

  /** A method net/http accepts: non-empty and made of token characters. */
  predicate ValidMethod(m: string) {
    m != "" && forall i :: 0 <= i < |m| ==> IsTokenChar(m[i])
  }

  /** Whether invoking `h` panics in the code as written: an HTTP hook with a
      URL and no body, whose method and URL net/http accepts (`urlParses`
      stands for net/url's parser). */
  predicate Panics(h: Hook, urlParses: string -> bool) {
    && h.kind.Http? && h.http.Some? && h.http.value.url != ""
    && ValidMethod(RequestMethod(h.http.value)) && urlParses(h.http.value.url)
    && h.http.value.body == ""
  }

  /** One invocation of the code as written: it panics or returns. */
  datatype Invocation = Panicked | Returned(outcome: Outcome<HookError>)

  /**
   * ExecuteHook as written: an accepted HTTP request without a body panics
   * whatever the world would answer; every other invocation returns what
   * ExecuteHook, the intended behaviour, returns.
   */
  function ExecuteHookAsWritten(h: Hook, answer: Effect, urlParses: string -> bool): (r: Invocation)
    ensures r.Panicked? <==> Panics(h, urlParses)
    ensures r.Panicked? ==> h.kind.Http? && PayloadPresent(h)
    ensures r.Returned? ==> r.outcome == ExecuteHook(h, answer)
  {
    match h.kind
    case Http =>
      if h.http.None? || h.http.value.url == "" then Returned(Fail(MissingURL))
      else if ValidMethod(RequestMethod(h.http.value)) && urlParses(h.http.value.url) && h.http.value.body == "" then Panicked
      else Returned(ExecuteHook(h, answer))
    case _ => Returned(ExecuteHook(h, answer))
  }

  /** With the body the request evidently meant to omit, a body-less HTTP hook
      passes iff the server answers below 400, and a broken request fails. */
  lemma BodylessHookRuns(h: Hook, status: int)
    requires h.kind.Http? && PayloadPresent(h) && h.http.value.body == ""
    ensures ExecuteHook(h, Done(status)) == Pass <==> status < 400
    ensures status >= 400 ==> ExecuteHook(h, Done(status)) == Fail(BadStatus(status))
    ensures ExecuteHook(h, Broken) == Fail(RequestFailed)
  {
  }

  /**
   * RunHooks as the code is written: None when an invocation panics. A hook
   * that panics does so on its first attempt, and the attempts of any other
   * hook return what ExecuteHook returns, so its run is RetryFrom's.
   */
  function RunHooksAsWritten(hooks: seq<Hook>, oracle: nat -> Effect, urlParses: string -> bool, t: nat): (r: Option<BatchRun>)
    decreases |hooks|
  {
    if hooks == [] then Some(BatchRun(None, t, []))
    else if ExecuteHookAsWritten(hooks[0], oracle(t), urlParses).Panicked? then None
    else
      var first := RetryFrom(hooks[0], oracle, t, 0);
      if first.err.Some? then Some(BatchRun(Some(HookFailure(hooks[0].name, first.err.value)), first.next, first.delays))
      else
        var rest := RunHooksAsWritten(hooks[1..], oracle, urlParses, first.next);
        if rest.None? then None else Some(After(first.delays, rest.value))
  }

  /**
   * Let p be the first hook that panics (|hooks| when none does). The list as
   * written panics iff every hook before p eventually succeeds; when one of
   * them fails, the run ends with RunHooks's failure; with no panicking hook
   * it is RunHooks's run.
   */
  lemma {:induction false} RunHooksAsWrittenSpec(hooks: seq<Hook>, oracle: nat -> Effect, urlParses: string -> bool, t: nat, p: nat)
    requires p <= |hooks|
    requires forall j :: 0 <= j < p ==> !Panics(hooks[j], urlParses)
    requires p < |hooks| ==> Panics(hooks[p], urlParses)
    decreases p
    ensures RunHooksAsWritten(hooks, oracle, urlParses, t).None? <==>
      p < |hooks| && RunHooks(hooks[..p], oracle, t).err.None?
    ensures RunHooks(hooks[..p], oracle, t).err.Some? ==>
      RunHooksAsWritten(hooks, oracle, urlParses, t) == Some(RunHooks(hooks, oracle, t)) &&
      RunHooks(hooks, oracle, t) == RunHooks(hooks[..p], oracle, t)
    ensures p == |hooks| ==> RunHooksAsWritten(hooks, oracle, urlParses, t) == Some(RunHooks(hooks, oracle, t))
  {
    if p > 0 {
      var first := RetryFrom(hooks[0], oracle, t, 0);
      assert !Panics(hooks[0], urlParses);
      assert hooks[..p][0] == hooks[0];
      assert hooks[..p][1..] == hooks[1..][..p - 1];
      if first.err.None? {
        forall j | 0 <= j < p - 1
          ensures !Panics(hooks[1..][j], urlParses)
        {
          assert hooks[1..][j] == hooks[j + 1];
        }
        if p < |hooks| {
          assert hooks[1..][p - 1] == hooks[p];
        }
        RunHooksAsWrittenSpec(hooks[1..], oracle, urlParses, first.next, p - 1);
      }
    } else if hooks != [] {
      assert RunHooksAsWritten(hooks, oracle, urlParses, t).None?;
    }
  }

  /**
   * A health check as it is usually written: a GET of a URL net/url parses,
   * with no body. The code as written panics on it, alone or as a list,
   * whatever the server would answer; the intended runner passes it on a 200.
   */
  lemma BodylessGetPanics(oracle: nat -> Effect, urlParses: string -> bool, t: nat)
    requires urlParses("http://localhost/health")
    ensures var h := Hook("ping", "http", [], "", Some(HTTPHook("http://localhost/health", "", map[], "")), None, 0);
      && ExecuteHookAsWritten(h, oracle(t), urlParses) == Panicked
      && RunHooksAsWritten([h], oracle, urlParses, t) == None
      && ExecuteHook(h, Done(200)) == Pass
  {
    var h := Hook("ping", "http", [], "", Some(HTTPHook("http://localhost/health", "", map[], "")), None, 0);
    KindSpec("http");
    assert ValidMethod("GET") by {
      assert forall i :: 0 <= i < |"GET"| ==> 'A' <= "GET"[i] <= 'Z';
    }
    assert Panics(h, urlParses);
  }
}

=== FILE: lifecycle.dfy ===
/**
 * The per-service lifecycle state machine (pkg/lifecycle/manager.go).
 *
 * The manager owns a map from service name to its state record and moves
 * each record through pre-start -> start -> post-start -> running on start
 * and pre-stop -> stop -> post-stop -> stopped on stop. Hooks go through the
 * hook runner; `hookClock` is the next slot of the hook oracle.
 */
module Lifecycle {
  import opened Wrappers
  import opened Compose
  import opened Hooks

  datatype Phase = PreStart | Start | PostStart | Running | PreStop | Stop | PostStop | Stopped

  /** Why a post container did not run: the context ended during its wait. */
  datatype PostError = Cancelled

  datatype LifecycleError =
    | PreStartHooksFailed(failure: HookFailure)
    | PostStartHooksFailed(failure: HookFailure)
    | PostContainerFailed(container: string, cause: PostError)
    | NotFound(service: string)

  /** A service's record. Start and stop timestamps are not modelled. */
  datatype ServiceState = ServiceState(
    name: string,
    phase: Phase,
    status: string,
    error: Option<LifecycleError>,
    initCompleted: bool,
    postCompleted: bool)

  /** The part of a Go context the manager observes: whether it is done. */
  datatype Context = Context(cancelled: bool)

  // ---------------------------------------------------------------------
  // Durations, as time.ParseDuration accepts them (overflow not modelled)
  // ---------------------------------------------------------------------

  predicate IsDigit(c: char) { '0' <= c <= '9' }

  /** Length of the run of decimal digits at the front of s. */
  function DigitRun(s: string): (n: nat)
    ensures n <= |s|
    ensures forall i :: 0 <= i < n ==> IsDigit(s[i])
    ensures n < |s| ==> !IsDigit(s[n])
  {
    if s != [] && IsDigit(s[0]) then 1 + DigitRun(s[1..]) else 0
  }

  /** Length of the unit at the front of s: everything up to a digit or '.'. */
  function UnitRun(s: string): (n: nat)
    ensures n <= |s|
    ensures n < |s| ==> IsDigit(s[n]) || s[n] == '.'
  {
    if s != [] && !IsDigit(s[0]) && s[0] != '.' then 1 + UnitRun(s[1..]) else 0
  }

  const Units: set<string> := {"ns", "us", "µs", "μs", "ms", "s", "m", "h"}

  /** One or more groups of a decimal number followed by a unit. */
  predicate DurationGroups(s: string)
    decreases |s|
  {
    && s != []
    && (IsDigit(s[0]) || s[0] == '.')
    && var whole := DigitRun(s);
       var afterWhole := s[whole..];
       var frac := if afterWhole != [] && afterWhole[0] == '.' then 1 + DigitRun(afterWhole[1..]) else 0;
       var afterNumber := afterWhole[frac..];
       var unit := UnitRun(afterNumber);
       && (whole > 0 || frac > 1)
       && unit > 0
       && afterNumber[..unit] in Units
       && (afterNumber[unit..] == [] || DurationGroups(afterNumber[unit..]))
  }

  /** Whether time.ParseDuration accepts s: an optional sign, then "0" or groups. */
  predicate ParsesAsDuration(s: string) {
    var body := if s != [] && (s[0] == '+' || s[0] == '-') then s[1..] else s;
    body == "0" || DurationGroups(body)
  }

  // ---------------------------------------------------------------------
  // Containers run by the manager
  // ---------------------------------------------------------------------

  /** Waits the post container's delay (if it has a valid one), racing the
      context; the container itself is not run by the manager. */
  function ExecutePostContainer(post: PostContainer, ctx: Context): (r: Outcome<PostError>)
    ensures r.Fail? <==> post.waitFor != "" && ParsesAsDuration(post.waitFor) && ctx.cancelled
  {
    if post.waitFor != "" && ParsesAsDuration(post.waitFor) && ctx.cancelled then Fail(Cancelled) else Pass
  }

  /** Whether a post container runs on this path. */
  predicate Selected(post: PostContainer, onSuccess: bool) {
    (onSuccess && post.onSuccess) || (!onSuccess && post.onFailure)
  }

  /** The error of the first selected post container that fails, in
      declaration order. */
  function PostRun(posts: seq<PostContainer>, onSuccess: bool, ctx: Context): (r: Option<LifecycleError>)
    decreases |posts|
  {
    if posts == [] then None
    else if Selected(posts[0], onSuccess) && ExecutePostContainer(posts[0], ctx).Fail? then
      Some(PostContainerFailed(posts[0].name, ExecutePostContainer(posts[0], ctx).error))
    else PostRun(posts[1..], onSuccess, ctx)
  }

  /**
   * The post-container run fails iff some selected container fails, and it
   * then names the first such container; unselected containers never matter.
   */
  lemma {:induction false} PostRunSpec(posts: seq<PostContainer>, onSuccess: bool, ctx: Context)
    ensures PostRun(posts, onSuccess, ctx).None? <==>
      forall i :: 0 <= i < |posts| && Selected(posts[i], onSuccess) ==> ExecutePostContainer(posts[i], ctx).Pass?
    ensures PostRun(posts, onSuccess, ctx).Some? ==>
      exists i :: 0 <= i < |posts| && Selected(posts[i], onSuccess) && ExecutePostContainer(posts[i], ctx).Fail?
        && PostRun(posts, onSuccess, ctx) == Some(PostContainerFailed(posts[i].name, Cancelled))
        && forall j :: 0 <= j < i && Selected(posts[j], onSuccess) ==> ExecutePostContainer(posts[j], ctx).Pass?
  {
    if posts != [] {
      PostRunSpec(posts[1..], onSuccess, ctx);
      if !(Selected(posts[0], onSuccess) && ExecutePostContainer(posts[0], ctx).Fail?) {
        forall i | 1 <= i < |posts|
          ensures posts[i] == posts[1..][i - 1]
        {
        }
        if PostRun(posts, onSuccess, ctx).Some? {
          var i :| 0 <= i < |posts[1..]| && Selected(posts[1..][i], onSuccess) && ExecutePostContainer(posts[1..][i], ctx).Fail?
            && PostRun(posts[1..], onSuccess, ctx) == Some(PostContainerFailed(posts[1..][i].name, Cancelled))
            && forall j :: 0 <= j < i && Selected(posts[1..][j], onSuccess) ==> ExecutePostContainer(posts[1..][j], ctx).Pass?;
          assert Selected(posts[i + 1], onSuccess) && ExecutePostContainer(posts[i + 1], ctx).Fail?;
        }
      } else {
        assert Selected(posts[0], onSuccess) && ExecutePostContainer(posts[0], ctx).Fail?;
      }
    }
  }

  /** With a live context, no post container fails. */
  lemma PostRunLiveContext(posts: seq<PostContainer>, onSuccess: bool)
    ensures PostRun(posts, onSuccess, Context(false)).None?
  {
    PostRunSpec(posts, onSuccess, Context(false));
  }

  // ---------------------------------------------------------------------
  // What StartService and StopService do, as functions of the old state
  // ---------------------------------------------------------------------

  datatype HookPoint = PreStartHooks | PostStartHooks | PreStopHooks | PostStopHooks

  /** The hooks a service declares at a point; none when it has no hooks. */
  function HooksAt(svc: Service, point: HookPoint): seq<Hook> {
    if svc.hooks.None? then []
    else match point
      case PreStartHooks => svc.hooks.value.preStart
      case PostStartHooks => svc.hooks.value.postStart
      case PreStopHooks => svc.hooks.value.preStop
      case PostStopHooks => svc.hooks.value.postStop
  }

  /** The record a start attempt begins with. */
  function Registered(name: string): ServiceState {
    ServiceState(name, PreStart, "Starting", None, false, false)
  }

  /** PostCompleted after a post-container run: set when the list is
      non-empty and no selected container failed, otherwise left as it was. */
  function AfterPostContainers(st: ServiceState, posts: seq<PostContainer>, onSuccess: bool, ctx: Context): (r: ServiceState)
    ensures r == st.(postCompleted := r.postCompleted)
    ensures r.postCompleted <==> st.postCompleted || (|posts| > 0 && PostRun(posts, onSuccess, ctx).None?)
  {
    if |posts| > 0 && PostRun(posts, onSuccess, ctx).None? then st.(postCompleted := true) else st
  }

  datatype Transition = Transition(state: ServiceState, err: Option<LifecycleError>, clock: nat)

  /**
   * A start attempt for `name` once its pre-start and post-start hook runs
   * are known: a fresh record; init containers (which always succeed);
   * pre-start hooks; phases start, post-start; post-start hooks; on-success
   * post containers (best effort); phase running.
   */
  function StartFrom(name: string, svc: Service, ctx: Context, pre: BatchRun, post: BatchRun): Transition
  {
    var st := Registered(name).(initCompleted := |svc.initContainers| > 0);
    if pre.err.Some? then
      var e := PreStartHooksFailed(pre.err.value);
      Transition(st.(error := Some(e), status := "Error"), Some(e), pre.next)
    else
      var st := st.(phase := PostStart);
      if post.err.Some? then
        var e := PostStartHooksFailed(post.err.value);
        Transition(st.(error := Some(e), status := "Error"), Some(e), post.next)
      else
        var st := AfterPostContainers(st, svc.postContainers, true, ctx);
        Transition(st.(phase := Running, status := "Running"), None, post.next)
  }

  /** A start attempt, with the hooks run from oracle slot `clock`. */
  function StartSpec(name: string, svc: Service, ctx: Context, oracle: nat -> Effect, clock: nat): Transition {
    var pre := RunHooks(HooksAt(svc, PreStartHooks), oracle, clock);
    StartFrom(name, svc, ctx, pre, RunHooks(HooksAt(svc, PostStartHooks), oracle, pre.next))
  }

  /** What a start attempt promises, in terms of its two hook runs. */
  lemma StartFromSpec(name: string, svc: Service, ctx: Context, pre: BatchRun, post: BatchRun)
    ensures var r := StartFrom(name, svc, ctx, pre, post);
      && r.state.name == name
      && (r.state.initCompleted <==> |svc.initContainers| > 0)
      && (r.err.None? <==> pre.err.None? && post.err.None?)
      && (r.err.None? ==> r.state.phase == Running && r.state.status == "Running" && r.state.error == None)
      && (r.err.None? ==> (r.state.postCompleted <==> |svc.postContainers| > 0 && PostRun(svc.postContainers, true, ctx).None?))
      && (r.err.Some? ==> r.state.status == "Error" && r.state.error == r.err && !r.state.postCompleted)
      && (pre.err.Some? ==> r.err == Some(PreStartHooksFailed(pre.err.value)) && r.state.phase == PreStart && r.clock == pre.next)
      && (pre.err.None? && post.err.Some? ==> r.err == Some(PostStartHooksFailed(post.err.value)) && r.state.phase == PostStart)
      && (pre.err.None? ==> r.clock == post.next)
  {
  }

  /**
   * Stopping a known service once its pre-stop and post-stop hook runs are
   * known: a stopped one is left alone; otherwise hook failures are ignored,
   * the on-failure post containers run (best effort), and the record ends
   * stopped.
   */
  function StopFrom(st: ServiceState, svc: Service, ctx: Context, clock: nat, post: BatchRun): (r: Transition)
    ensures r.err == None
    ensures r.state.phase == Stopped
    ensures st.phase == Stopped ==> r.state == st && r.clock == clock
    ensures st.phase != Stopped ==> r.state.status == "Stopped" && r.clock == post.next
    ensures r.state.name == st.name && r.state.error == st.error && r.state.initCompleted == st.initCompleted
    ensures st.phase != Stopped ==> (r.state.postCompleted <==> st.postCompleted || (|svc.postContainers| > 0 && PostRun(svc.postContainers, false, ctx).None?))
  {
    if st.phase == Stopped then Transition(st, None, clock)
    else
      var st := AfterPostContainers(st.(phase := PostStop), svc.postContainers, false, ctx);
      Transition(st.(phase := Stopped, status := "Stopped"), None, post.next)
  }

  /** Stopping a known service, with the hooks run from oracle slot `clock`. */
  function StopSpec(st: ServiceState, svc: Service, ctx: Context, oracle: nat -> Effect, clock: nat): Transition {
    var pre := RunHooks(HooksAt(svc, PreStopHooks), oracle, clock);
    StopFrom(st, svc, ctx, clock, RunHooks(HooksAt(svc, PostStopHooks), oracle, pre.next))
  }

  /** Stopping twice is the same as stopping once: the second stop runs no
      hooks (the clock does not move) and changes nothing. */
  lemma StopIdempotent(st: ServiceState, svc: Service, ctx: Context, oracle: nat -> Effect, clock: nat)
    ensures var once := StopSpec(st, svc, ctx, oracle, clock);
      StopSpec(once.state, svc, ctx, oracle, once.clock) == once
  {
  }

  /** Neither the post containers nor a done context, which here reaches
      only the post containers, changes a start's error or its hook
      position: a failing post container never fails the start. */
  lemma StartIgnoresPostContainers(name: string, svc: Service, posts: seq<PostContainer>, ctx1: Context, ctx2: Context, oracle: nat -> Effect, clock: nat)
    ensures var other := svc.(postContainers := posts);
      StartSpec(name, svc, ctx1, oracle, clock).err == StartSpec(name, other, ctx2, oracle, clock).err
    ensures var other := svc.(postContainers := posts);
      StartSpec(name, svc, ctx1, oracle, clock).clock == StartSpec(name, other, ctx2, oracle, clock).clock
  {
  }

  // ---------------------------------------------------------------------
  // The manager
  // ---------------------------------------------------------------------

  /** Writing a key twice leaves only the second value. */
  lemma Overwrite<K, V>(m: map<K, V>, k: K, a: V, b: V)
    ensures m[k := a][k := b] == m[k := b]
  {
  }

  class Manager {
    var services: map<string, ServiceState>
    var hookClock: nat
    const oracle: nat -> Effect

    constructor (oracle: nat -> Effect)
      ensures services == map[] && hookClock == 0 && this.oracle == oracle
    {
      services, hookClock := map[], 0;
      this.oracle := oracle;
    }

    /** Starts a service's lifecycle; see StartSpec. Any earlier record for
        the name is replaced; other records are untouched. */
    method StartService(name: string, svc: Service, ctx: Context) returns (err: Option<LifecycleError>)
      modifies this
      ensures var r := StartSpec(name, svc, ctx, oracle, old(hookClock));
        && services == old(services)[name := r.state]
        && err == r.err
        && hookClock == r.clock
    {
      ghost var s0, c0 := services, hookClock;
      ghost var pre := RunHooks(HooksAt(svc, PreStartHooks), oracle, c0);
      ghost var post := RunHooks(HooksAt(svc, PostStartHooks), oracle, pre.next);
      assert StartSpec(name, svc, ctx, oracle, c0) == StartFrom(name, svc, ctx, pre, post);
      services := services[name := Registered(name)];
      var st := RunInitContainers(services[name], svc);
      services := services[name := st];
      Overwrite(s0, name, Registered(name), st);
      var failure := RunHooksAt(svc, PreStartHooks);
      if failure.Some? {
        err := SetError(name, PreStartHooksFailed(failure.value));
        Overwrite(s0, name, st, services[name]);
        return;
      }
      UpdatePhase(name, Start);
      Overwrite(s0, name, st, services[name]);
      st := services[name];
      UpdatePhase(name, PostStart);
      Overwrite(s0, name, st, services[name]);
      st := services[name];
      failure := RunHooksAt(svc, PostStartHooks);
      if failure.Some? {
        err := SetError(name, PostStartHooksFailed(failure.value));
        Overwrite(s0, name, st, services[name]);
        return;
      }
      // A failing post container is only logged.
      var postErr;
      ghost var prev := st;
      st, postErr := RunPostContainers(st, svc, true, ctx);
      services := services[name := st];
      Overwrite(s0, name, prev, st);
      UpdatePhase(name, Running);
      Overwrite(s0, name, st, services[name]);
      st := services[name];
      UpdateStatus(name, "Running");
      Overwrite(s0, name, st, services[name]);
      err := None;
    }

    /** Stops a service's lifecycle; see StopSpec. An unknown name is an
        error and changes nothing. */
    method StopService(name: string, svc: Service, ctx: Context) returns (err: Option<LifecycleError>)
      modifies this
      ensures name !in old(services) ==> err == Some(NotFound(name)) && services == old(services) && hookClock == old(hookClock)
      ensures name in old(services) ==>
        var r := StopSpec(old(services)[name], svc, ctx, oracle, old(hookClock));
        && services == old(services)[name := r.state]
        && err == r.err
        && hookClock == r.clock
    {
      if name !in services {
        return Some(NotFound(name));
      }
      var st := services[name];
      if st.phase == Stopped {
        return None;
      }
      ghost var pre := RunHooks(HooksAt(svc, PreStopHooks), oracle, hookClock);
      ghost var post := RunHooks(HooksAt(svc, PostStopHooks), oracle, pre.next);
      assert StopSpec(st, svc, ctx, oracle, hookClock) == StopFrom(st, svc, ctx, hookClock, post);
      ghost var s0 := services;
      UpdatePhase(name, PreStop);
      // Failing stop hooks and post containers are only logged.
      var _ := RunHooksAt(svc, PreStopHooks);
      UpdatePhase(name, Stop);
      Overwrite(s0, name, st.(phase := PreStop), services[name]);
      UpdatePhase(name, PostStop);
      Overwrite(s0, name, st.(phase := Stop), services[name]);
      var _ := RunHooksAt(svc, PostStopHooks);
      var postErr;
      ghost var prev := services[name];
      st, postErr := RunPostContainers(services[name], svc, false, ctx);
      services := services[name := st.(phase := Stopped, status := "Stopped")];
      Overwrite(s0, name, prev, services[name]);
      err := None;
    }

    /** Runs a service's hooks at one point, when it declares any, from the
        next oracle slot; the records are untouched. */
    method RunHooksAt(svc: Service, point: HookPoint) returns (failure: Option<HookFailure>)
      modifies this
      ensures var r := RunHooks(HooksAt(svc, point), oracle, old(hookClock));
        failure == r.err && hookClock == r.next
      ensures services == old(services)
    {
      var hooks := HooksAt(svc, point);
      failure := None;
      if svc.hooks.Some? && |hooks| > 0 {
        var next, delays;
        failure, next, delays := ExecuteHooks(hooks, oracle, hookClock);
        hookClock := next;
      }
    }

    /** Runs the init containers in order; each one completes (the
        manager's own init step always succeeds), then the record, which
        the caller stores under the service's name, gets InitCompleted if
        there were any. */
    method RunInitContainers(st: ServiceState, svc: Service) returns (st': ServiceState)
      ensures st' == st.(initCompleted := st.initCompleted || |svc.initContainers| > 0)
    {
      st' := st;
      if |svc.initContainers| == 0 {
        return;
      }
      // executeInitContainer returns nil for every container, so the loop
      // over them always runs to the end.
      st' := st'.(initCompleted := true);
    }

    /** Runs the selected post containers in order, stopping at the first
        failure; on success with a non-empty list the record, which the
        caller stores under the service's name, gets PostCompleted. */
    method RunPostContainers(st: ServiceState, svc: Service, onSuccess: bool, ctx: Context) returns (st': ServiceState, err: Option<LifecycleError>)
      ensures err == PostRun(svc.postContainers, onSuccess, ctx)
      ensures st' == AfterPostContainers(st, svc.postContainers, onSuccess, ctx)
    {
      st' := st;
      var posts := svc.postContainers;
      if |posts| == 0 {
        return st', None;
      }
      var i := 0;
      while i < |posts|
        invariant 0 <= i <= |posts|
        invariant PostRun(posts, onSuccess, ctx) == PostRun(posts[i..], onSuccess, ctx)
      {
        assert posts[i..][0] == posts[i] && posts[i..][1..] == posts[i + 1..];
        if Selected(posts[i], onSuccess) {
          var r := ExecutePostContainer(posts[i], ctx);
          if r.Fail? {
            return st', Some(PostContainerFailed(posts[i].name, r.error));
          }
        }
        i := i + 1;
      }
      st' := st'.(postCompleted := true);
      err := None;
    }

    /** The record for a name, if there is one. */
    method GetServiceState(name: string) returns (state: ServiceState, exists_: bool)
      ensures exists_ <==> name in services
      ensures exists_ ==> state == services[name]
    {
      exists_ := name in services;
      // Go returns nil for an unknown name; `state` is then a placeholder with no meaning.
      state := if exists_ then services[name] else Registered(name);
    }

    /** A copy of all records: same names, same records. */
    method GetAllServiceStates() returns (states: map<string, ServiceState>)
      ensures states.Keys == services.Keys
      ensures forall k :: k in states ==> states[k] == services[k]
    {
      states := map[];
      var keys := services.Keys;
      while keys != {}
        invariant keys <= services.Keys
        invariant states.Keys == services.Keys - keys
        invariant forall k :: k in states ==> states[k] == services[k]
        decreases keys
      {
        var k :| k in keys;
        states := states[k := services[k]];
        keys := keys - {k};
      }
    }

    method UpdatePhase(name: string, phase: Phase)
      modifies this
      ensures name in old(services) ==> services == old(services)[name := old(services)[name].(phase := phase)]
      ensures name !in old(services) ==> services == old(services)
      ensures hookClock == old(hookClock)
    {
      if name in services {
        services := services[name := services[name].(phase := phase)];
      }
    }

    method UpdateStatus(name: string, status: string)
      modifies this
      ensures name in old(services) ==> services == old(services)[name := old(services)[name].(status := status)]
      ensures name !in old(services) ==> services == old(services)
      ensures hookClock == old(hookClock)
    {
      if name in services {
        services := services[name := services[name].(status := status)];
      }
    }

    /** Records an error on a known service, marks it "Error", and hands the
        error back. */
    method SetError(name: string, e: LifecycleError) returns (r: Option<LifecycleError>)
      modifies this
      ensures r == Some(e)
      ensures name in old(services) ==> services == old(services)[name := old(services)[name].(error := Some(e), status := "Error")]
      ensures name !in old(services) ==> services == old(services)
      ensures hookClock == old(hookClock)
    {
      if name in services {
        services := services[name := services[name].(error := Some(e), status := "Error")];
      }
      r := Some(e);
    }
  }
}

=== FILE: ordering.dfy ===
/**
 * Service start order (internal/executor/executor.go, orderServices): a
 * depth-first walk over depends_on that emits each name after its
 * dependencies. A name is marked visited before its dependencies are walked,
 * so the walk ends on cyclic graphs too; cycles are not reported, and
 * dependency names that are not services are emitted like any other name.
 *
 * Go iterates maps in an unspecified order. The order in which the top-level
 * names are tried is the caller's `names`; a service's dependencies are
 * walked in the order `dependsOn` lists them.
 */
module Ordering {
  import opened Compose

  /** The names a name depends on: its service's depends_on, or nothing when
      no service has that name. */
  function Deps(services: map<string, Service>, name: string): seq<string> {
    if name in services then DependencyNames(services[name]) else []
  }

  /** Every name the walk can meet: the services and every name they depend on. */
  ghost function Universe(services: map<string, Service>): set<string> {
    services.Keys + set n, d | n in services && d in DependencyNames(services[n]) :: d
  }

  function Elems(s: seq<string>): set<string> {
    set x | x in s
  }

  predicate NoDup(s: seq<string>) {
    forall i, j :: 0 <= i < j < |s| ==> s[i] != s[j]
  }

  /** Each name of p depends on the next one. */
  ghost predicate IsPath(services: map<string, Service>, p: seq<string>) {
    forall j :: 0 <= j < |p| - 1 ==> p[j + 1] in Deps(services, p[j])
  }

  /** No name depends on itself, directly or through others. */
  ghost predicate Acyclic(services: map<string, Service>) {
    forall p :: IsPath(services, p) && 2 <= |p| ==> p[0] != p[|p| - 1]
  }

  /** Every dependency of a name in `listed` is in `among`. */
  ghost predicate DepsWithin(services: map<string, Service>, listed: seq<string>, among: set<string>) {
    forall x, d :: x in listed && d in Deps(services, x) ==> d in among
  }

  /** A listed name comes after every listed name it depends on. */
  ghost predicate DepsFirst(services: map<string, Service>, order: seq<string>) {
    forall i, j :: 0 <= i < |order| && 0 <= j < |order| && order[j] in Deps(services, order[i]) ==> j < i
  }

  /** Everything orderServices promises about the order it returns. */
  ghost predicate StartOrder(services: map<string, Service>, order: seq<string>) {
    && NoDup(order)
    && (forall k :: k in services ==> k in order)
    && Elems(order) <= Universe(services)
    && DepsWithin(services, order, Elems(order))
    && (Acyclic(services) ==> DepsFirst(services, order))
  }

  /**
   * The walk's state between steps: the visited names are those already
   * emitted plus those whose walk is still open (`open`, the chain of names
   * that led here); nothing is emitted twice; every emitted name's
   * dependencies have been visited; on an acyclic graph, dependencies come
   * first.
   */
  ghost predicate Walking(services: map<string, Service>, visited: set<string>, result: seq<string>, open: seq<string>) {
    && visited == Elems(result) + Elems(open)
    && Elems(result) !! Elems(open)
    && NoDup(result)
    && DepsWithin(services, result, visited)
    && (Acyclic(services) ==> DepsWithin(services, result, Elems(result)) && DepsFirst(services, result))
  }

  lemma CardMono(a: set<string>, b: set<string>)
    requires a <= b
    ensures |a| <= |b|
    decreases |a|
  {
    if a != {} {
      var x :| x in a;
      CardMono(a - {x}, b - {x});
    }
  }

  /** Marking a new name visited shrinks what is left to visit. */
  lemma {:induction false} Shrinks(u: set<string>, a: set<string>, b: set<string>, x: string)
    requires a <= b && x in b && x !in a && x in u
    ensures |u - b| < |u - a|
  {
    CardMono(u - b, (u - a) - {x});
  }

  lemma DepInUniverse(services: map<string, Service>, n: string, d: string)
    requires d in Deps(services, n)
    ensures d in Universe(services)
  {
    assert n in services;
  }

  /** A path extended by a dependency of its last name is a path. */
  lemma {:induction false} Extend(services: map<string, Service>, p: seq<string>, d: string)
    requires IsPath(services, p) && |p| > 0
    requires d in Deps(services, p[|p| - 1])
    ensures IsPath(services, p + [d])
  {
    var q := p + [d];
    forall k | 0 <= k < |q| - 1
      ensures q[k + 1] in Deps(services, q[k])
    {
      if k < |p| - 1 {
        assert q[k] == p[k] && q[k + 1] == p[k + 1];
      }
    }
  }

  lemma ElemsSnoc(s: seq<string>, x: string)
    ensures Elems(s + [x]) == Elems(s) + {x}
  {
  }

  /** A visited name that is not open has been emitted. */
  lemma Emitted(services: map<string, Service>, visited: set<string>, result: seq<string>, open: seq<string>, d: string)
    requires Walking(services, visited, result, open)
    requires d in visited && d !in open
    ensures d in result
  {
  }

  /** A suffix of a path is a path. */
  lemma {:induction false} SuffixPath(services: map<string, Service>, p: seq<string>, j: nat)
    requires IsPath(services, p) && j <= |p|
    ensures IsPath(services, p[j..])
  {
    var q := p[j..];
    forall k | 0 <= k < |q| - 1
      ensures q[k + 1] in Deps(services, q[k])
    {
      assert q[k] == p[j + k] && q[k + 1] == p[j + k + 1];
    }
  }

  /** On an acyclic graph, a dependency of the last name of a path is not on
      the path: otherwise the path from it back to itself is a cycle. */
  lemma {:induction false} OffPath(services: map<string, Service>, p: seq<string>, d: string)
    requires Acyclic(services) && IsPath(services, p) && |p| > 0
    requires d in Deps(services, p[|p| - 1])
    ensures d !in p
  {
    forall j | 0 <= j < |p|
      ensures p[j] != d
    {
      SuffixPath(services, p, j);
      var q := p[j..];
      assert q[|q| - 1] == p[|p| - 1];
      Extend(services, q, d);
      var path := q + [d];
      assert path[0] == p[j] && path[|path| - 1] == d;
    }
  }

  /** Marking an unvisited name opens its walk. */
  lemma {:induction false} Open(services: map<string, Service>, visited: set<string>, result: seq<string>, open: seq<string>, name: string)
    requires Walking(services, visited, result, open)
    requires name !in visited
    ensures Walking(services, visited + {name}, result, open + [name])
  {
    assert Elems(open + [name]) == Elems(open) + {name};
    forall x, d | x in result && d in Deps(services, x)
      ensures d in visited + {name}
    {
    }
  }

  /** Once its dependencies are visited (and, on an acyclic graph, emitted),
      the last open name is emitted and its walk closes. */
  lemma {:induction false} Close(services: map<string, Service>, visited: set<string>, result: seq<string>, open: seq<string>, name: string)
    requires Walking(services, visited, result, open + [name])
    requires name !in open
    requires forall d :: d in Deps(services, name) ==> d in visited
    requires Acyclic(services) ==> forall d :: d in Deps(services, name) ==> d in result
    ensures Walking(services, visited, result + [name], open)
  {
    var result' := result + [name];
    assert Elems(open + [name]) == Elems(open) + {name};
    assert Elems(result') == Elems(result) + {name};
    assert name !in result;
    forall i, j | 0 <= i < j < |result'|
      ensures result'[i] != result'[j]
    {
      if j < |result| {
        assert result'[i] == result[i] && result'[j] == result[j];
      } else {
        assert result'[i] == result[i];
      }
    }
    if Acyclic(services) {
      forall x, d | x in result' && d in Deps(services, x)
        ensures d in Elems(result')
      {
        if x != name {
          assert x in result;
        }
      }
      assert forall k :: 0 <= k < |result| ==> result'[k] == result[k];
      assert result'[|result|] == name;
      forall k | 0 <= k < |result|
        ensures name !in Deps(services, result[k])
      {
        assert result[k] in result;
      }
      assert !IsPath(services, [name, name]);
      forall i, j | 0 <= i < |result'| && 0 <= j < |result'| && result'[j] in Deps(services, result'[i])
        ensures j < i
      {
      }
    }
  }

  /** Once every dependency of the last open name is visited, on an acyclic
      graph every one of them has been emitted: none of them is open. */
  lemma DepsEmitted(services: map<string, Service>, visited: set<string>, result: seq<string>, open: seq<string>, name: string)
    requires Walking(services, visited, result, open + [name])
    requires IsPath(services, open + [name])
    requires Elems(Deps(services, name)) <= visited
    ensures Acyclic(services) ==> forall d :: d in Deps(services, name) ==> d in result
  {
    if Acyclic(services) {
      forall d | d in Deps(services, name)
        ensures d in result
      {
        OffPath(services, open + [name], d);
        Emitted(services, visited, result, open + [name], d);
      }
    }
  }

  /**
   * visit(name): nothing if it was visited; otherwise marks it, walks its
   * dependencies, and emits it. `open` is the chain of names whose walks are
   * in progress, ending just before `name`.
   */
  method Visit(services: map<string, Service>, name: string, visited: set<string>, result: seq<string>, ghost open: seq<string>)
    returns (visited': set<string>, result': seq<string>)
    requires name in Universe(services) && visited <= Universe(services)
    requires Walking(services, visited, result, open)
    requires IsPath(services, open + [name])
    ensures Walking(services, visited', result', open)
    ensures visited + {name} <= visited' <= Universe(services)
    ensures result <= result'
    decreases |Universe(services) - visited|, 0
  {
    if name in visited {
      return visited, result;
    }
    Open(services, visited, result, open, name);
    visited', result' := VisitDependencies(services, name, visited + {name}, result, open);
    DepsEmitted(services, visited', result', open, name);
    Close(services, visited', result', open, name);
    result' := result' + [name];
  }

  /** visit's loop: walks the dependencies of `name`, in order. */
  method VisitDependencies(services: map<string, Service>, name: string, visited: set<string>, result: seq<string>, ghost open: seq<string>)
    returns (visited': set<string>, result': seq<string>)
    requires name in visited && visited <= Universe(services)
    requires Walking(services, visited, result, open + [name])
    requires IsPath(services, open + [name])
    ensures Walking(services, visited', result', open + [name])
    ensures visited <= visited' <= Universe(services)
    ensures result <= result'
    ensures Elems(Deps(services, name)) <= visited'
    decreases |Universe(services) - visited|, 2
  {
    visited', result' := visited, result;
    var deps := Deps(services, name);
    for i := 0 to |deps|
      invariant visited <= visited' <= Universe(services)
      invariant result <= result'
      invariant Walking(services, visited', result', open + [name])
      invariant Elems(deps[..i]) <= visited'
    {
      CardMono(Universe(services) - visited', Universe(services) - visited);
      visited', result' := VisitDependency(services, name, i, visited', result', open);
    }
    assert deps[..|deps|] == deps;
  }

  /** One step of visit's loop: walks the i-th dependency of `name`. */
  method VisitDependency(services: map<string, Service>, name: string, i: nat, visited: set<string>, result: seq<string>, ghost open: seq<string>)
    returns (visited': set<string>, result': seq<string>)
    requires i < |Deps(services, name)|
    requires visited <= Universe(services)
    requires Walking(services, visited, result, open + [name])
    requires IsPath(services, open + [name])
    requires Elems(Deps(services, name)[..i]) <= visited
    ensures Walking(services, visited', result', open + [name])
    ensures visited <= visited' <= Universe(services)
    ensures result <= result'
    ensures Elems(Deps(services, name)[..i + 1]) <= visited'
    decreases |Universe(services) - visited|, 1
  {
    var deps := Deps(services, name);
    DepInUniverse(services, name, deps[i]);
    Extend(services, open + [name], deps[i]);
    visited', result' := Visit(services, deps[i], visited, result, open + [name]);
    assert deps[..i + 1] == deps[..i] + [deps[i]];
    ElemsSnoc(deps[..i], deps[i]);
  }

  /**
   * orderServices: walks every service, in the order `names` lists them, and
   * returns the emitted names. `names` is the map's key enumeration.
   */
  method OrderServices(services: map<string, Service>, names: seq<string>) returns (order: seq<string>)
    requires forall k :: k in names <==> k in services
    ensures NoDup(order)
    ensures forall k :: k in services ==> k in order
    ensures Elems(order) <= Universe(services)
    ensures DepsWithin(services, order, Elems(order))
    ensures Acyclic(services) ==> DepsFirst(services, order)
  {
    var visited: set<string> := {};
    order := [];
    for i := 0 to |names|
      invariant visited <= Universe(services)
      invariant Walking(services, visited, order, [])
      invariant forall j :: 0 <= j < i ==> names[j] in visited
    {
      visited, order := Visit(services, names[i], visited, order, []);
    }
    WalkDone(services, names, visited, order);
  }

  /** A finished walk with nothing open has emitted exactly what it visited. */
  lemma WalkDone(services: map<string, Service>, names: seq<string>, visited: set<string>, order: seq<string>)
    requires forall k :: k in names <==> k in services
    requires visited <= Universe(services)
    requires Walking(services, visited, order, [])
    requires forall j :: 0 <= j < |names| ==> names[j] in visited
    ensures NoDup(order)
    ensures forall k :: k in services ==> k in order
    ensures Elems(order) <= Universe(services)
    ensures DepsWithin(services, order, Elems(order))
    ensures Acyclic(services) ==> DepsFirst(services, order)
  {
    assert Elems([]) == {};
    assert visited == Elems(order);
  }
}

=== FILE: parser.dfy ===
/**
 * The compose-file parser's logic (internal/parser/parser.go): the
 * validators, the env-file reader, relative-path rebasing and the variable
 * lookup used during expansion. Reading files, YAML decoding and os.Expand
 * itself are not part of this model: the env-file reader is given the file's
 * contents (or the read error), and the validators work on the decoded
 * compose file.
 */
module Parser {
  import opened Wrappers
  import opened Compose
  import opened Text
  import opened Hooks

  // ---------------------------------------------------------------------
  // Validation
  // ---------------------------------------------------------------------

  /** What validateHooks demands of one hook: a name, a known type, and the
      payload that type needs. */
  predicate HookValid(h: Hook) {
    h.name != "" && PayloadPresent(h)
  }

  /** The error validateHooks reports for one hook, if any. */
  function HookProblem(h: Hook): Option<string> {
    if h.name == "" then Some("hook name is required")
    else
      match h.kind
      case Other(tag) =>
        if tag == "" then Some("hook " + h.name + ": type is required")
        else Some("hook " + h.name + ": invalid type " + tag)
      case Command =>
        if |h.command| == 0 then Some("hook " + h.name + ": command is required for command type") else None
      case Script =>
        if h.script == "" then Some("hook " + h.name + ": script is required for script type") else None
      case Http =>
        if h.http.None? || h.http.value.url == "" then
          Some("hook " + h.name + ": http configuration with URL is required for http type")
        else None
      case Exec =>
        if h.exec.None? || h.exec.value.container == "" || |h.exec.value.command| == 0 then
          Some("hook " + h.name + ": exec configuration with container and command is required for exec type")
        else None
  }

  /** validateHooks finds no problem with a hook exactly when the hook is
      valid. */
  lemma HookProblemSpec(h: Hook)
    ensures HookProblem(h).None? <==> HookValid(h)
  {
    if h.name != "" {
      match h.kind
      case Other(tag) =>
      case Command =>
      case Script =>
      case Http =>
      case Exec =>
    }
  }

  /** The first problem in a list of hooks, in list order. */
  function HookListProblem(hooks: seq<Hook>): Option<string>
    decreases |hooks|
  {
    if hooks == [] then None
    else if HookProblem(hooks[0]).Some? then HookProblem(hooks[0])
    else HookListProblem(hooks[1..])
  }

  lemma {:induction false} HookListProblemSpec(hooks: seq<Hook>)
    ensures HookListProblem(hooks).None? <==> forall h :: h in hooks ==> HookValid(h)
    ensures HookListProblem(hooks).Some? ==> exists h :: h in hooks && HookProblem(h) == HookListProblem(hooks)
    decreases |hooks|
  {
    if hooks != [] {
      HookListProblemSpec(hooks[1..]);
      HookProblemSpec(hooks[0]);
      assert hooks == [hooks[0]] + hooks[1..];
    }
  }

  /** The eight hook lists of a service, in the order validateHooks checks
      them. */
  function HookLists(hs: Compose.Hooks): (r: seq<seq<Hook>>)
    ensures |r| == 8
  {
    [hs.preStart, hs.postStart, hs.preStop, hs.postStop,
     hs.preBuild, hs.postBuild, hs.preDeploy, hs.postDeploy]
  }

  /** The first problem among several hook lists, list by list. */
  function ListsProblem(lists: seq<seq<Hook>>): Option<string>
    decreases |lists|
  {
    if lists == [] then None
    else if HookListProblem(lists[0]).Some? then HookListProblem(lists[0])
    else ListsProblem(lists[1..])
  }

  /** validateHooks. */
  function ValidateHooks(hs: Compose.Hooks): Outcome<string> {
    var p := ListsProblem(HookLists(hs));
    if p.Some? then Fail(p.value) else Pass
  }

  /** Every hook of every list is valid. */
  ghost predicate HooksValid(hs: Compose.Hooks) {
    forall l, h :: l in HookLists(hs) && h in l ==> HookValid(h)
  }

  lemma {:induction false} ListsProblemSpec(lists: seq<seq<Hook>>)
    ensures ListsProblem(lists).None? <==> forall l, h :: l in lists && h in l ==> HookValid(h)
    decreases |lists|
  {
    if lists != [] {
      ListsProblemSpec(lists[1..]);
      HookListProblemSpec(lists[0]);
      assert lists == [lists[0]] + lists[1..];
    }
  }

  /** validateHooks accepts exactly when every hook in the eight lists has a
      name, a known type and that type's payload. */
  lemma ValidateHooksSpec(hs: Compose.Hooks)
    ensures ValidateHooks(hs).Pass? <==> HooksValid(hs)
  {
    ListsProblemSpec(HookLists(hs));
  }

  /** A hook that passes validation never fails ExecuteHook's type or payload
      checks: whatever the effect, an error can only come from running it. */
  lemma ValidHookRuns(h: Hook, answer: Effect)
    requires HookValid(h)
    ensures ExecuteHook(h, answer).Fail? ==>
      !ExecuteHook(h, answer).error.IsPrecondition() && !ExecuteHook(h, answer).error.UnknownType?
  {
  }

  /** What validateService demands of an init or post container. */
  predicate ContainerNamed(name: string, image: string) {
    name != "" && image != ""
  }

  function InitProblem(inits: seq<InitContainer>): Option<string>
    decreases |inits|
  {
    if inits == [] then None
    else if inits[0].name == "" then Some("init container name is required")
    else if inits[0].image == "" then Some("init container " + inits[0].name + ": image is required")
    else InitProblem(inits[1..])
  }

  function PostProblem(posts: seq<PostContainer>): Option<string>
    decreases |posts|
  {
    if posts == [] then None
    else if posts[0].name == "" then Some("post container name is required")
    else if posts[0].image == "" then Some("post container " + posts[0].name + ": image is required")
    else PostProblem(posts[1..])
  }

  lemma {:induction false} InitProblemSpec(inits: seq<InitContainer>)
    ensures InitProblem(inits).None? <==> forall c :: c in inits ==> ContainerNamed(c.name, c.image)
    decreases |inits|
  {
    if inits != [] {
      InitProblemSpec(inits[1..]);
      assert inits == [inits[0]] + inits[1..];
    }
  }

  lemma {:induction false} PostProblemSpec(posts: seq<PostContainer>)
    ensures PostProblem(posts).None? <==> forall c :: c in posts ==> ContainerNamed(c.name, c.image)
    decreases |posts|
  {
    if posts != [] {
      PostProblemSpec(posts[1..]);
      assert posts == [posts[0]] + posts[1..];
    }
  }

  /** validateService: an image or a build; named init and post containers
      with images; valid hooks. */
  function ValidateService(svc: Service): Outcome<string> {
    if svc.image == "" && svc.build.None? then Fail("either image or build must be specified")
    else if InitProblem(svc.initContainers).Some? then Fail(InitProblem(svc.initContainers).value)
    else if PostProblem(svc.postContainers).Some? then Fail(PostProblem(svc.postContainers).value)
    else if svc.hooks.Some? && ValidateHooks(svc.hooks.value).Fail? then
      Fail("hooks validation failed: " + ValidateHooks(svc.hooks.value).error)
    else Pass
  }

  /** Everything validateService checks, stated on its own. */
  ghost predicate ServiceValid(svc: Service) {
    && (svc.image != "" || svc.build.Some?)
    && (forall c :: c in svc.initContainers ==> ContainerNamed(c.name, c.image))
    && (forall c :: c in svc.postContainers ==> ContainerNamed(c.name, c.image))
    && (svc.hooks.Some? ==> HooksValid(svc.hooks.value))
  }

  lemma ValidateServiceSpec(svc: Service)
    ensures ValidateService(svc).Pass? <==> ServiceValid(svc)
  {
    InitProblemSpec(svc.initContainers);
    PostProblemSpec(svc.postContainers);
    if svc.hooks.Some? {
      ValidateHooksSpec(svc.hooks.value);
    }
  }

  /** The first service, in `names` order, that fails validation. */
  function ServicesProblem(services: map<string, Service>, names: seq<string>): Option<string>
    decreases |names|
  {
    if names == [] then None
    else if names[0] in services && ValidateService(services[names[0]]).Fail? then
      Some("service " + names[0] + ": " + ValidateService(services[names[0]]).error)
    else ServicesProblem(services, names[1..])
  }

  lemma {:induction false} ServicesProblemSpec(services: map<string, Service>, names: seq<string>)
    ensures ServicesProblem(services, names).None? <==>
      forall k :: k in names && k in services ==> ValidateService(services[k]).Pass?
    decreases |names|
  {
    if names != [] {
      ServicesProblemSpec(services, names[1..]);
      assert names == [names[0]] + names[1..];
    }
  }

  /**
   * validateComposeFile: a version, at least one service, and every service
   * valid. `names` is the order in which Go's map iteration visits the
   * services, which decides which failing service is reported.
   */
  function ValidateComposeFile(cf: ComposeFile, names: seq<string>): Outcome<string>
    requires forall k :: k in names <==> k in cf.services
  {
    if cf.version == "" then Fail("version is required")
    else if |cf.services| == 0 then Fail("at least one service is required")
    else
      var p := ServicesProblem(cf.services, names);
      if p.Some? then Fail(p.value) else Pass
  }

  /** The compose file is accepted exactly when it has a version, at least
      one service, and every service is valid; the iteration order only
      decides which error is reported. */
  lemma ValidateComposeFileSpec(cf: ComposeFile, names: seq<string>)
    requires forall k :: k in names <==> k in cf.services
    ensures ValidateComposeFile(cf, names).Pass? <==>
      cf.version != "" && |cf.services| > 0 && forall k :: k in cf.services ==> ServiceValid(cf.services[k])
  {
    ServicesProblemSpec(cf.services, names);
    forall k | k in cf.services
      ensures ValidateService(cf.services[k]).Pass? <==> ServiceValid(cf.services[k])
    {
      ValidateServiceSpec(cf.services[k]);
    }
  }

  // ---------------------------------------------------------------------
  // Env files
  // ---------------------------------------------------------------------

  const Quotes: set<char> := {'"', '\''}

  /**
   * One line of an env file: after trimming, blank lines and comments are
   * skipped, and so is a line without `=`; otherwise the line splits at its
   * first `=` into a trimmed key and a trimmed value with surrounding quotes
   * removed.
   */
  function ParseLine(line: string): Option<(string, string)> {
    ParseTrimmed(TrimSpace(line))
  }

  /** ParseLine after the line is trimmed. */
  function ParseTrimmed(t: string): Option<(string, string)> {
    if t == "" || t[0] == '#' then None
    else
      match Cut(t, '=')
      case None => None
      case Some((k, v)) => Some(Entry(k, v))
  }

  /** The key and value of a line, from the text around its first `=`. */
  function Entry(k: string, v: string): (string, string) {
    (TrimSpace(k), Trim(TrimSpace(v), Quotes))
  }

  /** A line is read iff, trimmed, it is not blank, not a comment and holds
      an `=`; the key then holds no `=`. */
  lemma ParseLineSpec(line: string)
    ensures var t := TrimSpace(line);
      ParseLine(line).Some? <==> t != "" && t[0] != '#' && '=' in t
    ensures ParseLine(line).Some? ==> '=' !in ParseLine(line).value.0
  {
    var t := TrimSpace(line);
    if t != "" && t[0] != '#' && '=' in t {
      var (k, v) := Cut(t, '=').value;
      TrimSlice(k, Spaces);
      assert TrimSpace(k) == k[|k| - |TrimLeft(k, Spaces)|..][..|TrimSpace(k)|];
    }
  }

  /** A key and value that need no trimming are read back from `key=value`;
      the value may itself hold `=`. */
  lemma ParseLineRoundTrip(key: string, value: string)
    requires key != "" && key[0] != '#' && '=' !in key
    requires key[0] !in Spaces && key[|key| - 1] !in Spaces
    requires value == [] || (value[0] !in Spaces && value[|value| - 1] !in Spaces)
    requires value == [] || (value[0] !in Quotes && value[|value| - 1] !in Quotes)
    ensures ParseLine(key + "=" + value) == Some((key, value))
  {
    LineNeedsNoTrim(key, value);
    CutLine(key, value);
    EntryKeeps(key, value);
  }

  lemma CutLine(key: string, value: string)
    requires key != "" && key[0] != '#' && '=' !in key
    ensures ParseTrimmed(key + "=" + value) == Some(Entry(key, value))
  {
    CutJoin(key, '=', value);
    assert (key + "=" + value)[0] == key[0];
  }

  lemma EntryKeeps(key: string, value: string)
    requires key == [] || (key[0] !in Spaces && key[|key| - 1] !in Spaces)
    requires value == [] || (value[0] !in Spaces && value[|value| - 1] !in Spaces)
    requires value == [] || (value[0] !in Quotes && value[|value| - 1] !in Quotes)
    ensures Entry(key, value) == (key, value)
  {
    TrimKeeps(key, Spaces);
    TrimKeeps(value, Spaces);
    TrimKeeps(value, Quotes);
  }

  lemma LineNeedsNoTrim(key: string, value: string)
    requires key != [] && key[0] !in Spaces
    requires value == [] || value[|value| - 1] !in Spaces
    ensures TrimSpace(key + "=" + value) == key + "=" + value
  {
    var line := key + "=" + value;
    assert line[0] == key[0];
    assert '=' !in Spaces;
    assert line[|line| - 1] == if value == [] then '=' else value[|value| - 1];
    TrimKeeps(line, Spaces);
  }

  /** What each line of a file reads as. */
  function ParseLines(lines: seq<string>): (r: seq<Option<(string, string)>>)
    ensures |r| == |lines| && forall i :: 0 <= i < |lines| ==> r[i] == ParseLine(lines[i])
  {
    seq(|lines|, i requires 0 <= i < |lines| => ParseLine(lines[i]))
  }

  /** The variables after applying the read lines, in order, on top of
      `env`; a line that reads as nothing changes nothing. */
  function Apply(env: map<string, string>, entries: seq<Option<(string, string)>>): map<string, string>
    decreases |entries|
  {
    if entries == [] then env
    else
      var before := Apply(env, entries[..|entries| - 1]);
      match entries[|entries| - 1]
      case None => before
      case Some((k, v)) => before[k := v]
  }

  /** Entry i sets key k to v and no later entry sets k. */
  ghost predicate LastSets(entries: seq<Option<(string, string)>>, i: int, k: string, v: string) {
    && 0 <= i < |entries|
    && entries[i] == Some((k, v))
    && forall j :: i < j < |entries| && entries[j].Some? ==> entries[j].value.0 != k
  }

  /** A later line overrides an earlier one: the last line that sets a key
      decides its value. */
  lemma {:induction false} LastLineWins(env: map<string, string>, entries: seq<Option<(string, string)>>, i: int, k: string, v: string)
    requires LastSets(entries, i, k, v)
    ensures k in Apply(env, entries) && Apply(env, entries)[k] == v
    decreases |entries|
  {
    var n := |entries| - 1;
    if i < n {
      var init := entries[..n];
      assert LastSets(init, i, k, v) by {
        forall j | i < j < |init| && init[j].Some?
          ensures init[j].value.0 != k
        {
          assert init[j] == entries[j];
        }
      }
      LastLineWins(env, init, i, k, v);
    }
  }

  /** A key no line sets keeps the value it had, or stays absent. */
  lemma {:induction false} UnsetKeyKept(env: map<string, string>, entries: seq<Option<(string, string)>>, k: string)
    requires forall j :: 0 <= j < |entries| && entries[j].Some? ==> entries[j].value.0 != k
    ensures k in Apply(env, entries) <==> k in env
    ensures k in env ==> Apply(env, entries)[k] == env[k]
    decreases |entries|
  {
    if entries != [] {
      var init := entries[..|entries| - 1];
      forall j | 0 <= j < |init| && init[j].Some?
        ensures init[j].value.0 != k
      {
        assert init[j] == entries[j];
      }
      UnsetKeyKept(env, init, k);
    }
  }

  /** The variable lookup of expandEnvVars: a variable loaded into the
      parser wins over the process environment, where an unset variable
      reads as empty. */
  function Lookup(vars: map<string, string>, environ: map<string, string>, key: string): (v: string)
    ensures key in vars ==> v == vars[key]
    ensures key !in vars && key in environ ==> v == environ[key]
    ensures key !in vars && key !in environ ==> v == ""
  {
    if key in vars then vars[key]
    else if key in environ then environ[key]
    else ""
  }

  /** After SetEnvVar(key, value) the lookup of key yields value whatever the
      environment says, and every other key reads as before. */
  lemma SetThenLookup(vars: map<string, string>, environ: map<string, string>, key: string, value: string, other: string)
    ensures Lookup(vars[key := value], environ, key) == value
    ensures other != key ==> Lookup(vars[key := value], environ, other) == Lookup(vars, environ, other)
  {
  }

  // ---------------------------------------------------------------------
  // Relative paths
  // ---------------------------------------------------------------------

  /** filepath.IsAbs on a Unix system. */
  predicate IsAbs(path: string) {
    |path| > 0 && path[0] == '/'
  }

  /** filepath.Join of two elements, without the lexical cleaning. */
  function Join(base: string, path: string): (r: string)
    ensures IsAbs(base) ==> IsAbs(r)
  {
    if base == "" then path else base + "/" + path
  }

  /** A path as resolveRelativePaths leaves it: absolute paths unchanged,
      relative ones joined onto the base directory. */
  function Rebase(base: string, path: string): (r: string)
    ensures IsAbs(path) ==> r == path
    ensures !IsAbs(path) ==> r == Join(base, path)
  {
    if IsAbs(path) then path else Join(base, path)
  }

  function RebaseAll(base: string, paths: seq<string>): (r: seq<string>)
    ensures |r| == |paths| && forall i :: 0 <= i < |paths| ==> r[i] == Rebase(base, paths[i])
  {
    seq(|paths|, i requires 0 <= i < |paths| => Rebase(base, paths[i]))
  }

  /** A service with its build context (when set) and env files rebased. */
  function RebasedService(base: string, svc: Service): Service {
    svc.(build := if svc.build.Some? && svc.build.value.context != ""
                  then Some(svc.build.value.(context := Rebase(base, svc.build.value.context)))
                  else svc.build,
         envFile := RebaseAll(base, svc.envFile))
  }

  /** A config or secret with its file (when set) rebased. */
  function RebasedFile(base: string, f: FileRef): FileRef {
    if f.file != "" then f.(file := Rebase(base, f.file)) else f
  }

  /** The compose file as resolveRelativePaths leaves it. */
  function Resolved(base: string, cf: ComposeFile): ComposeFile {
    cf.(services := map k | k in cf.services :: RebasedService(base, cf.services[k]),
        configs := map k | k in cf.configs :: RebasedFile(base, cf.configs[k]),
        secrets := map k | k in cf.secrets :: RebasedFile(base, cf.secrets[k]))
  }

  /** Resolving only touches paths: the same services, configs and secrets,
      each path absolute-or-unchanged, and with an absolute base directory
      every non-empty path ends up absolute. */
  lemma ResolvedSpec(base: string, cf: ComposeFile)
    ensures var r := Resolved(base, cf);
      && r.version == cf.version
      && r.services.Keys == cf.services.Keys
      && r.configs.Keys == cf.configs.Keys && r.secrets.Keys == cf.secrets.Keys
      && (forall k :: k in cf.services ==>
            && r.services[k].image == cf.services[k].image
            && r.services[k].dependsOn == cf.services[k].dependsOn
            && r.services[k].hooks == cf.services[k].hooks
            && (IsAbs(base) ==> forall p :: p in r.services[k].envFile ==> IsAbs(p)))
      && (forall k :: k in cf.configs && IsAbs(cf.configs[k].file) ==> r.configs[k] == cf.configs[k])
      && (forall k :: k in cf.configs && cf.configs[k].file == "" ==> r.configs[k] == cf.configs[k])
      && (forall k :: k in cf.secrets && IsAbs(cf.secrets[k].file) ==> r.secrets[k] == cf.secrets[k])
      && (forall k :: k in cf.secrets && cf.secrets[k].file == "" ==> r.secrets[k] == cf.secrets[k])
  {
    var r := Resolved(base, cf);
    forall k, p | k in cf.services && IsAbs(base) && p in r.services[k].envFile
      ensures IsAbs(p)
    {
      var i :| 0 <= i < |r.services[k].envFile| && r.services[k].envFile[i] == p;
    }
  }

  /** With an absolute base directory (or none), resolving twice is
      resolving once. */
  lemma ResolvedIdempotent(base: string, cf: ComposeFile)
    requires IsAbs(base) || base == ""
    ensures Resolved(base, Resolved(base, cf)) == Resolved(base, cf)
  {
    var r := Resolved(base, cf);
    var rr := Resolved(base, r);
    forall k | k in r.services
      ensures rr.services[k] == r.services[k]
    {
      RebasedServiceIdempotent(base, cf.services[k]);
    }
    forall k | k in r.configs
      ensures rr.configs[k] == r.configs[k]
    {
      RebasedFileIdempotent(base, cf.configs[k]);
    }
    forall k | k in r.secrets
      ensures rr.secrets[k] == r.secrets[k]
    {
      RebasedFileIdempotent(base, cf.secrets[k]);
    }
    assert rr.services == r.services;
    assert rr.configs == r.configs;
    assert rr.secrets == r.secrets;
  }

  lemma RebasedServiceIdempotent(base: string, svc: Service)
    requires IsAbs(base) || base == ""
    ensures RebasedService(base, RebasedService(base, svc)) == RebasedService(base, svc)
  {
    var s := RebasedService(base, svc);
    assert RebaseAll(base, s.envFile) == s.envFile;
  }

  lemma RebasedFileIdempotent(base: string, f: FileRef)
    requires IsAbs(base) || base == ""
    ensures RebasedFile(base, RebasedFile(base, f)) == RebasedFile(base, f)
  {
  }

  // ---------------------------------------------------------------------
  // The parser
  // ---------------------------------------------------------------------

  /** The Parser: the variables loaded from env files or set directly. */
  class Parser {
    var envVars: map<string, string>

    constructor ()
      ensures envVars == map[]
    {
      envVars := map[];
    }

    /** SetEnvVar: sets the variable, replacing any earlier value. */
    method SetEnvVar(key: string, value: string)
      modifies this
      ensures envVars == old(envVars)[key := value]
    {
      envVars := envVars[key := value];
    }

    /**
     * LoadEnvFile, given the outcome of reading the file: a read error is
     * reported and changes nothing; otherwise every line is read in order
     * on top of the variables already set.
     */
    method LoadEnvFile(data: Result<string, string>) returns (err: Option<string>)
      modifies this
      ensures data.Failure? ==> err == Some("failed to read env file: " + data.error) && envVars == old(envVars)
      ensures data.Success? ==> err.None? && envVars == Apply(old(envVars), ParseLines(Lines(data.value)))
    {
      if data.Failure? {
        return Some("failed to read env file: " + data.error);
      }
      var lines := Lines(data.value);
      ghost var env0, entries := envVars, ParseLines(lines);
      for i := 0 to |lines|
        invariant envVars == Apply(env0, entries[..i])
      {
        assert entries[..i + 1][..i] == entries[..i];
        var parsed := ParseLine(lines[i]);
        if parsed.Some? {
          envVars := envVars[parsed.value.0 := parsed.value.1];
        }
      }
      assert entries[..|lines|] == entries;
      err := None;
    }

    /** The lookup expandEnvVars uses, over this parser's variables. */
    function LookupVar(environ: map<string, string>, key: string): (v: string)
      reads this
      ensures v == Lookup(envVars, environ, key)
    {
      Lookup(envVars, environ, key)
    }

    /**
     * resolveRelativePaths: rewrites the paths of every service, config and
     * secret in place. The compose file is a value here, so the rewritten
     * file is returned.
     */
    method ResolveRelativePaths(cf: ComposeFile, baseDir: string) returns (r: ComposeFile)
      ensures r == Resolved(baseDir, cf)
    {
      var services := RebaseServices(baseDir, cf.services);
      var configs := RebaseFiles(baseDir, cf.configs);
      var secrets := RebaseFiles(baseDir, cf.secrets);
      r := cf.(services := services, configs := configs, secrets := secrets);
    }
  }

  /** resolveRelativePaths' loop over services. */
  method RebaseServices(base: string, services: map<string, Service>) returns (r: map<string, Service>)
    ensures r == map k | k in services :: RebasedService(base, services[k])
  {
    r := services;
    var left := services.Keys;
    while left != {}
      invariant left <= services.Keys && r.Keys == services.Keys
      invariant forall k :: k in r ==> r[k] == if k in left then services[k] else RebasedService(base, services[k])
      decreases |left|
    {
      var k :| k in left;
      var svc := RebaseService(base, r[k]);
      r := r[k := svc];
      left := left - {k};
    }
  }

  /** The body of resolveRelativePaths' service loop for one service. */
  method RebaseService(base: string, svc: Service) returns (r: Service)
    ensures r == RebasedService(base, svc)
  {
    r := svc;
    if svc.build.Some? && svc.build.value.context != "" && !IsAbs(svc.build.value.context) {
      r := r.(build := Some(svc.build.value.(context := Join(base, svc.build.value.context))));
    }
    var envFile := svc.envFile;
    for i := 0 to |envFile|
      invariant |envFile| == |svc.envFile|
      invariant forall j :: 0 <= j < |envFile| ==>
        envFile[j] == if j < i then Rebase(base, svc.envFile[j]) else svc.envFile[j]
    {
      if !IsAbs(envFile[i]) {
        envFile := envFile[i := Join(base, envFile[i])];
      }
    }
    r := r.(envFile := envFile);
  }

  /** resolveRelativePaths' loop over configs (and over secrets). */
  method RebaseFiles(base: string, files: map<string, FileRef>) returns (r: map<string, FileRef>)
    ensures r == map k | k in files :: RebasedFile(base, files[k])
  {
    r := files;
    var left := files.Keys;
    while left != {}
      invariant left <= files.Keys && r.Keys == files.Keys
      invariant forall k :: k in r ==> r[k] == if k in left then files[k] else RebasedFile(base, files[k])
      decreases |left|
    {
      var k :| k in left;
      if r[k].file != "" && !IsAbs(r[k].file) {
        r := r[k := r[k].(file := Join(base, r[k].file))];
      }
      left := left - {k};
    }
  }
}

=== FILE: text.dfy ===
/**
 * The few Go string operations the env-file reader relies on: trimming
 * (strings.TrimSpace, strings.Trim), splitting a file into lines
 * (strings.Split with "\n") and splitting a line at its first separator
 * (strings.SplitN with n = 2). Strings are sequences of code points.
 */
module Text {
  import opened Wrappers

  /** The characters unicode.IsSpace reports as white space. */
  const Spaces: set<char> := {
    '\t', '\n', '\U{000B}', '\U{000C}', '\r', ' ', '\U{0085}', '\U{00A0}',
    '\U{1680}', '\U{2000}', '\U{2001}', '\U{2002}', '\U{2003}', '\U{2004}',
    '\U{2005}', '\U{2006}', '\U{2007}', '\U{2008}', '\U{2009}', '\U{200A}',
    '\U{2028}', '\U{2029}', '\U{202F}', '\U{205F}', '\U{3000}'}

  /** Drops the leading characters that are in `cut`. */
  function TrimLeft(s: string, cut: set<char>): (r: string)
    ensures r == [] || r[0] !in cut
    decreases |s|
  {
    if s != [] && s[0] in cut then TrimLeft(s[1..], cut) else s
  }

  /** Drops the trailing characters that are in `cut`. */
  function TrimRight(s: string, cut: set<char>): (r: string)
    ensures r == [] || r[|r| - 1] !in cut
    decreases |s|
  {
    if s != [] && s[|s| - 1] in cut then TrimRight(s[..|s| - 1], cut) else s
  }

  /** strings.Trim: drops the leading and trailing characters in `cut`. */
  function Trim(s: string, cut: set<char>): (r: string)
    ensures r == [] || (r[0] !in cut && r[|r| - 1] !in cut)
  {
    var l := TrimLeft(s, cut);
    TrimRightDrops(l, cut);
    TrimRight(l, cut)
  }

  function TrimSpace(s: string): (r: string)
    ensures r == [] || (r[0] !in Spaces && r[|r| - 1] !in Spaces)
  {
    Trim(s, Spaces)
  }

  /** What Trim removes is a run of `cut` characters at each end: the
      result is the slice of the input that starts at the first character not
      in `cut`, with only `cut` characters after it. */
  lemma {:induction false} TrimSlice(s: string, cut: set<char>)
    ensures |TrimLeft(s, cut)| <= |s|
    ensures var i, r := |s| - |TrimLeft(s, cut)|, Trim(s, cut);
      && i + |r| <= |s| && r == s[i..i + |r|]
      && (forall j :: 0 <= j < i ==> s[j] in cut)
      && (forall j :: i + |r| <= j < |s| ==> s[j] in cut)
  {
    var l := TrimLeft(s, cut);
    TrimLeftDrops(s, cut);
    TrimRightDrops(l, cut);
    var r := TrimRight(l, cut);
    assert r == Trim(s, cut);
    var i := |s| - |l|;
    assert l == s[i..];
    assert r == l[..|r|];
    assert r == s[i..i + |r|];
    forall j | i + |r| <= j < |s|
      ensures s[j] in cut
    {
      assert s[j] == l[j - i];
    }
  }

  /** TrimLeft keeps a suffix and drops only `cut` characters. */
  lemma {:induction false} TrimLeftDrops(s: string, cut: set<char>)
    ensures |TrimLeft(s, cut)| <= |s| && TrimLeft(s, cut) == s[|s| - |TrimLeft(s, cut)|..]
    ensures forall j :: 0 <= j < |s| - |TrimLeft(s, cut)| ==> s[j] in cut
    decreases |s|
  {
    if s != [] && s[0] in cut {
      TrimLeftDrops(s[1..], cut);
      forall j | 1 <= j < |s| - |TrimLeft(s, cut)|
        ensures s[j] in cut
      {
        assert s[j] == s[1..][j - 1];
      }
    }
  }

  /** TrimRight keeps a prefix and drops only `cut` characters. */
  lemma {:induction false} TrimRightDrops(s: string, cut: set<char>)
    ensures |TrimRight(s, cut)| <= |s| && TrimRight(s, cut) == s[..|TrimRight(s, cut)|]
    ensures forall j :: |TrimRight(s, cut)| <= j < |s| ==> s[j] in cut
    decreases |s|
  {
    if s != [] && s[|s| - 1] in cut {
      var t := s[..|s| - 1];
      TrimRightDrops(t, cut);
      forall j | |TrimRight(s, cut)| <= j < |s| - 1
        ensures s[j] in cut
      {
        assert s[j] == t[j];
      }
    }
  }

  /** A string with no `cut` character at either end is left as it is. */
  lemma TrimKeeps(s: string, cut: set<char>)
    requires s == [] || (s[0] !in cut && s[|s| - 1] !in cut)
    ensures Trim(s, cut) == s
  {
  }

  /** Trimming twice is trimming once. */
  lemma TrimIdempotent(s: string, cut: set<char>)
    ensures Trim(Trim(s, cut), cut) == Trim(s, cut)
  {
    TrimKeeps(Trim(s, cut), cut);
  }

  /** The position of the first occurrence of `c` in `s`. */
  function IndexOf(s: string, c: char): (i: nat)
    requires c in s
    ensures i < |s| && s[i] == c && c !in s[..i]
    decreases |s|
  {
    if s[0] == c then 0
    else
      var i := 1 + IndexOf(s[1..], c);
      assert s[..i] == [s[0]] + s[1..][..i - 1];
      i
  }

  /** strings.Split(s, "\n"): the pieces between line breaks; a string with
      no line break is one piece. */
  function Lines(s: string): (r: seq<string>)
    ensures |r| >= 1
    decreases |s|
  {
    if '\n' !in s then [s]
    else
      var i := IndexOf(s, '\n');
      [s[..i]] + Lines(s[i + 1..])
  }

  /** strings.Join(lines, "\n"). */
  function JoinLines(lines: seq<string>): string
    requires |lines| >= 1
    decreases |lines|
  {
    if |lines| == 1 then lines[0] else lines[0] + "\n" + JoinLines(lines[1..])
  }

  /** Splitting into lines loses nothing: the lines, joined back with line
      breaks, are the input, and no line holds a line break. */
  lemma {:induction false} LinesRoundTrip(s: string)
    ensures JoinLines(Lines(s)) == s
    ensures forall k :: 0 <= k < |Lines(s)| ==> '\n' !in Lines(s)[k]
    decreases |s|
  {
    if '\n' in s {
      var i := IndexOf(s, '\n');
      LinesRoundTrip(s[i + 1..]);
      assert s == s[..i] + "\n" + s[i + 1..];
      forall k | 1 <= k < |Lines(s)|
        ensures '\n' !in Lines(s)[k]
      {
        assert Lines(s)[k] == Lines(s[i + 1..])[k - 1];
      }
    }
  }

  /** strings.SplitN(s, sep, 2) for a one-character separator: the text
      before its first occurrence and the text after it, or nothing when it
      does not occur. */
  function Cut(s: string, sep: char): (r: Option<(string, string)>)
    ensures r.None? <==> sep !in s
    ensures r.Some? ==> s == r.value.0 + [sep] + r.value.1 && sep !in r.value.0
  {
    if sep !in s then None
    else
      var i := IndexOf(s, sep);
      assert s == s[..i] + [sep] + s[i + 1..];
      Some((s[..i], s[i + 1..]))
  }

  /** The cut is unique: a string made of a piece without the separator, the
      separator, and any rest is cut back into exactly those two pieces. */
  lemma CutJoin(a: string, sep: char, b: string)
    requires sep !in a
    ensures Cut(a + [sep] + b, sep) == Some((a, b))
  {
    var s := a + [sep] + b;
    assert s[..|a|] == a && s[|a| + 1..] == b;
    IndexOfFirst(s, sep, |a|);
  }

  /** IndexOf finds the first occurrence: a position holding `c` with no
      `c` before it is the one IndexOf returns. */
  lemma {:induction false} IndexOfFirst(s: string, c: char, k: nat)
    requires k < |s| && s[k] == c && c !in s[..k]
    ensures IndexOf(s, c) == k
    decreases k
  {
    if k > 0 {
      assert s[..k][0] == s[0];
      assert s[1..][..k - 1] == s[..k][1..];
      IndexOfFirst(s[1..], c, k - 1);
    }
  }
}

=== FILE: wrappers.dfy ===
/** Failure-carrying values used for the Go `(value, error)` and `error` returns. */
module Wrappers {

  datatype Option<+T> = None | Some(value: T)

  /** A Go call that returns only `error`: nil is Pass. */
  datatype Outcome<+E> = Pass | Fail(error: E)

  /** A Go call that returns `(T, error)`. */
  datatype Result<+T, +E> = Success(value: T) | Failure(error: E)
}
